=== FILE: README.md ===
# Yandex Disk to YouTube transfer — a Dafny model

`transfer.py` moves `.mov` videos from a public Yandex Disk folder to YouTube.
It lists the folder and keeps the `.mov` files. For each file not yet recorded in
the local ledger `uploaded_videos.json`, it:

1. asks for a download link;
2. downloads the file (up to three attempts);
3. uploads it through the YouTube resumable-upload protocol (up to three
   attempts, each driving a chunk loop with its own retry budget);
4. records the video id in the ledger;
5. deletes the local copy.

A `quotaExceeded` error from YouTube ends the whole process.

This project models that control logic. Every HTTP, Google-API and filesystem
call is replaced by a scripted outcome:

- the chunk loop is driven by a sequence of `next_chunk` outcomes;
- each bounded retry loop is driven by a function from attempt number to outcome;
- the orchestrator is driven by one script per candidate file.

Each routine is a pure function. It returns its result, the sleeps it would
take, and its effects on the ledger, on the working directory and on a trace
of the external calls made.

Modules:

- `Base` (`base.dfy`): `Option`, order-keeping `Filter`, and the `str`
  predicates the script uses (`startswith`, `endswith`, ASCII `lower`).
- `YandexDiskClient` (`yandex_disk_client.dfy`): these parts of the Yandex
  Disk client:
  - request headers;
  - public-key extraction;
  - the `type == 'file'` listing filter;
  - the `download_file` retry loop.
- `YouTubeUploader` (`youtube_uploader.dfy`): two parts of the YouTube side:
  - `_resumable_upload`: the chunk loop, `Loop` / `ResumableUpload`;
  - `upload_video`: the attempt loop, `UploadFrom` / `UploadVideo`;
  - `AttemptOf` says what one chunk-loop result looks like to an attempt.
- `UploadLedger` (`upload_ledger.dfy`): `load_uploaded_videos` and
  `save_uploaded_video` over an abstract ledger file. The file is absent,
  unreadable, or a document whose two top-level keys may each be missing.
- `Transfer` (`transfer.dfy`): `main`, in two parts:
  - `ProcessFile` is one iteration of the per-file loop;
  - `ProcessAll` is the fold over the `.mov` candidates, and `Run` is the whole
    process with its exit status.

  The state carries:
  - the two counters;
  - the ledger file;
  - the set of names present in the working directory;
  - the sleeps;
  - a trace of `Call(op, name)` records for link requests, downloads,
    uploads, ledger saves and deletes.

## Model

| member | source | states |
|---|---|---|
| YandexDiskClient.Headers | transfer.py:62-67 | An `Authorization` header is present exactly when a non-empty token is configured, and its value is `OAuth <token>`. It is the only header. |
| YandexDiskClient.ExtractPublicKey | transfer.py:69-75 | A parsed path beginning with `/d/` yields the rest of that path, such that `/d/` followed by the result gives the path back. Any other path leaves the configured key unchanged. |
| YandexDiskClient.ListFiles | transfer.py:87-103 | A failed request is reported (raised). A response without `_embedded.items` gives no files. Otherwise the result holds exactly the items whose type is `file`. |
| YandexDiskClient.ListingKeepsOrder | transfer.py:93-96 | The filter commutes with concatenation, so kept items stay in listing order. |
| YandexDiskClient.DownloadFrom | transfer.py:147-178 | From a given attempt on: success exactly on the first fetched attempt; sleeps of 5×(attempt+1) between failures; failure only once all three attempts failed. The local file is opened exactly when some attempt got past the request. |
| YandexDiskClient.DownloadFile | transfer.py:144-180 | At most three attempts. `True` only from an attempt that fetched the body, and every earlier attempt failed. `False`, never an exception, only after all three attempts failed. Sleeps are 5 then 10, with none after the last attempt. A success has written the local file. |
| YandexDiskClient.DownloadSucceedsIffSomeAttemptFetches | transfer.py:147-180 | `download_file` returns `True` exactly when one of the three attempts fetches the body. A failed download has slept 5 and 10 seconds. |
| YouTubeUploader.Loop | transfer.py:314-339 | The chunk loop from a given `retry` count and `error` flag. The k-th sleep is 2^(retry+k+1), and there are never more sleeps than retries left. Giving up happens only once `retry` would pass 3. Returning `None` comes after at least one sleep. A propagated HTTP status is outside {500, 502, 503, 504}. |
| YouTubeUploader.LoopTracesBack | transfer.py:314-339 | Each loop result is traced to its cause. A returned id, a returned `None` and a propagated `HttpError` each come from a matching chunk outcome. The loop is still waiting on `next_chunk` only when every outcome so far was a counted one (a progress report or a retriable error), never a deciding one. |
| YouTubeUploader.CountedStep | transfer.py:330-339 | Once `error` is set, one counted outcome below the give-up point costs one retry and one sleep and decides nothing. |
| YouTubeUploader.CountedRun | transfer.py:314-339 | With `error` set, k counted outcomes in a row leave the result to be decided by the rest of the script, with `retry` advanced by k. |
| YouTubeUploader.CountedRunSleeps | transfer.py:330-339 | ... and each of those k outcomes adds exactly one sleep. |
| YouTubeUploader.DecidingOutcome | transfer.py:316-334 | With `error` set, the next outcome decides the loop. A response with `id` returns it without sleeping. A non-retriable status propagates without sleeping. A response without `id` sleeps once and returns `None` if retries remain, and otherwise gives up. |
| YouTubeUploader.ErrorsThenDecision | transfer.py:314-339 | From a fresh loop: a retriable error and then c-1 counted outcomes hand the decision to the outcome at position c, with `error` set and `retry` at c. |
| YouTubeUploader.ErrorsThenDecisionSleeps | transfer.py:330-339 | ... after exactly c sleeps. |
| YouTubeUploader.ResumesAfterRetriableErrors | transfer.py:314-339 | The resume case. After progress reports, a retriable error and at most two further counted outcomes (c counted in all), the next deciding outcome settles the upload. The loop has then slept 2, 4, 8 cut to c entries. An id is returned and a non-retriable status propagates. A response without `id` sleeps once more and returns `None`, or gives up after 2, 4, 8 when c is 3. |
| YouTubeUploader.ServerErrorThenId | transfer.py:322-339 | A 503 and then a response with `id` return that id after one 2-second sleep. |
| YouTubeUploader.ResumableUpload | transfer.py:308-339 | The sleeps are a prefix of 2, 4, 8, so the 60-second cap is never reached. A give-up comes only after all three sleeps. A returned id, a returned `None` and a propagated HTTP error each come from a matching chunk outcome, and a propagated status is outside {500, 502, 503, 504}. The loop is left waiting only when no outcome in the script decided it. |
| YouTubeUploader.QuietProgress | transfer.py:314-319 | Before any error, progress reports change nothing: no retry is counted and no sleep is taken. |
| YouTubeUploader.ReturnsFirstId | transfer.py:316-319 | After any number of progress reports, the first final response carrying an `id` is returned with no sleep. |
| YouTubeUploader.MissingIdSleepsOnceThenReturnsNone | transfer.py:316-339 | A final response without `id` is caught as a retriable error. The loop sleeps 2 seconds, leaves the `while` because `response` is set, and returns `None`. |
| YouTubeUploader.NonRetriableHttpErrorPropagates | transfer.py:322-326 | An `HttpError` whose status is outside {500, 502, 503, 504} propagates at once, with no retry counted and no sleep. |
| YouTubeUploader.RetriableErrorIsCounted | transfer.py:322-339 | A retriable status or any other exception is counted, and the first one is followed by a 2-second sleep. |
| YouTubeUploader.CountedIterationsGiveUp | transfer.py:330-334 | Once `error` is set, every iteration that neither returns nor re-raises increments `retry`. The one that takes it past 3 raises "No longer attempting to retry". |
| YouTubeUploader.ProgressAfterErrorIsCounted | transfer.py:311-339 | Once `error` is set, each progress report consumes a retry and a sleep. Enough of them make the loop give up. |
| YouTubeUploader.FourthErrorGivesUp | transfer.py:330-339 | A retriable error followed by three counted iterations gives up after sleeping exactly 2, 4 and 8 seconds. It takes no fourth sleep. |
| YouTubeUploader.ErrorIsSticky | transfer.py:311-339 | `error` is never cleared. After one exception, plain progress reports alone sleep 2, 4, 8 and then give up. |
| YouTubeUploader.UploadFrom | transfer.py:245-306 | The attempt loop from a given attempt on. It stops on the first attempt that yields a response or the quota error. Every other failure sleeps 10×(attempt+1) and retries while attempts remain. `None` is returned after the third attempt. |
| YouTubeUploader.UploadVideo | transfer.py:242-306 | At most three attempts, each made only after the earlier ones neither responded nor hit the quota. A video id only comes from an attempt whose response carried it. The quota error is fatal on the attempt it occurs. `None` comes back only after a third failed attempt. Sleeps are 10 then 20. |
| YouTubeUploader.NotUploadedIffNoAttemptStops | transfer.py:245-306 | `None` comes back exactly when none of the three attempts yields a response or the quota error. |
| YouTubeUploader.AttemptOf | transfer.py:274-304 | A chunk-loop result has no attempt outcome exactly when the loop is still waiting on `next_chunk`. A returned response, with the same id, exactly for a returned id. An `HttpError`, with the same reason, exactly for a propagated HTTP error. A `None` response exactly when the loop returned `None`. A give-up is another exception. |
| YouTubeUploader.ChunkedUploadTracesBack | transfer.py:274-304 | With each attempt driven by its own chunk script: an uploaded id comes from a final response carrying it in the script of the attempt that returned it. The quota error is fatal only when that attempt's script holds a non-retriable `HttpError` with reason `quotaExceeded`. |
| YouTubeUploader.QuotaInFirstChunkLoopIsFatal | transfer.py:274-286 | A non-retriable `quotaExceeded` error in the first attempt's chunk loop, after any progress reports, ends the process after one attempt, with no sleep. |
| YouTubeUploader.ServerErrorInChunkLoopStillUploads | transfer.py:274-278 | A 503 in the first attempt's chunk loop is retried inside that loop. The attempt still returns the id, with no outer retry. |
| YouTubeUploader.NoIdNoVideoId | transfer.py:274-276 | If no final chunk response carries an `id`, the attempt never receives a response to take a video id from. |
| YouTubeUploader.MissingIdFailsTheAttempt | transfer.py:274-276 | A final response without `id` reaches `upload_video` as `None`. `response['id']` then fails, and the generic handler treats it as an unexpected error (lines 299-304). |
| YouTubeUploader.RateLimitThenSuccess | transfer.py:287-291 | A rate limit on the first attempt and an id on the second give that id after one 10-second sleep. |
| YouTubeUploader.QuotaStopsImmediately | transfer.py:284-286 | The quota error on the first attempt is fatal, with no sleep and no further attempt. |
| UploadLedger.LoadUploaded | transfer.py:342-351 | The names under `uploaded_files`, or nothing when the file is absent, unreadable or lacks the key. |
| UploadLedger.SaveUploaded | transfer.py:354-377 | The written document's `uploaded_files` is the old list (empty if the key was missing) with the name appended, duplicates kept. `videos[name]` holds the new id and time. Every other `videos` entry is unchanged, and missing keys are created. |
| UploadLedger.LoadAfterSave | transfer.py:342-377 | Loading after a save gives exactly the names loaded before plus the saved name. |
| Transfer.MovFiles | transfer.py:404 | The candidates are exactly the listed files whose lower-cased name ends in `.mov`. |
| Transfer.MovSuffix | transfer.py:404 | The suffix test ignores the case of the three letters only: the name must end in a dot followed by m, o, v in either case. |
| Transfer.ProcessFile | transfer.py:415-460 | One iteration only appends to the trace. A name already in the ledger leaves the state unchanged. The quota error, once hit, stays. |
| Transfer.StepTrace | transfer.py:415-460 | One iteration's calls, in order: none for a ledgered name; then the link request; the download only after a link; the upload only after a successful download; the save and the delete only after an upload that returned a non-empty id. |
| Transfer.StepCounters | transfer.py:429-460 | A processed file moves exactly one counter, and the success counter exactly when the upload returned an id. The quota error moves neither counter and is raised exactly when a downloaded file's upload meets it. |
| Transfer.StepLedger | transfer.py:444-448 | The ledger is rewritten exactly when the upload returned an id. The rewrite appends the name to `uploaded_files` and sets `videos[name]` to the id `upload_video` returned, with the save's timestamp. It adds that name to what loading reports and leaves other `videos` entries unchanged. |
| Transfer.StepLocal | transfer.py:429-460 | One iteration changes the working directory only for the file being processed. That file is present afterwards exactly when it was present before or a download wrote it, including a partial download that then failed, unless an upload returned an id and the delete succeeded. |
| Transfer.StepSleeps | transfer.py:438-444 | One iteration's sleeps are the download's back-off once a link was obtained, then the upload's back-off once the download succeeded. There are no others. |
| Transfer.LocalCopyAfterUpload | transfer.py:446-460 | A downloaded file whose upload failed stays on disk. After a successful upload it is gone exactly when the delete succeeds. |
| Transfer.StepCounts | transfer.py:415-460 | One iteration makes one link request per processed file and one save per upload that returned an id. It makes no call about any other name. |
| Transfer.Pending | transfer.py:415-422 | The names the loop is to process are the candidates not in the ledger: none of them is ledgered, every unledgered candidate is among them, and each comes from a candidate. |
| Transfer.StepLinks | transfer.py:419-430 | One iteration requests a link for its own file exactly when the name is not in the ledger, and for no other name. |
| Transfer.VisitsPendingInOrder | transfer.py:415-460 | The link requests of the loop are, in order, a prefix of the pending names. Without the quota error they are exactly the pending names, so every unledgered `.mov` candidate is processed. |
| Transfer.CallsOnlyForPending | transfer.py:415-460 | Every call of the loop is about a pending name. |
| Transfer.ProcessAll | transfer.py:415-460 | The fold only appends to the trace, and after the quota error nothing changes. |
| Transfer.SkipsLedgeredNames | transfer.py:419-422 | No name loaded from the ledger at start is ever passed to the link request, download, upload, save or delete. |
| Transfer.CountersAccount | transfer.py:412-460 | Across the loop: successes equal ledger saves, and successes plus failures equal link requests. After the quota error, the file that hit it is the only processed file counted by neither. |
| Transfer.LedgerGainsSavedNames | transfer.py:446-448 | After the loop, loading the ledger gives the names loaded before plus exactly the names saved during the loop. |
| Transfer.LedgerKeepsOtherEntries | transfer.py:446-448 | Every `videos` entry of a name not saved during the loop is left as it was. |
| Transfer.SavedRecordsFromUploads | transfer.py:444-448 | Across the loop, every saved name ends with a `videos` entry. That entry holds the id the upload of some candidate of that name returned, and the time of that save. |
| Transfer.LocalFilesOfOthersUntouched | transfer.py:437-456 | A name with no call in the trace is in the working directory afterwards exactly when it was before. |
| Transfer.LocalFilesLeaveOnlyWhenSaved | transfer.py:429-460 | Across the loop, a file leaves the working directory only if its name was saved to the ledger. Whatever fails before that keeps the local copy. |
| Transfer.QuotaEndsTheRun | transfer.py:284-286 | If the quota error ends the run, the last call is the upload that hit it. Nothing is saved or deleted after it and no later file is touched. |
| Transfer.Run | transfer.py:380-461 | A client or listing failure exits with status 1 before any processing. The process exits with status 1 exactly then or on the quota error. The run ends with "nothing to do" exactly when the clients and the listing succeed and no `.mov` file is found, and then no call is made. |
| Transfer.RunVisitsListedMovFiles | transfer.py:398-460 | A run whose clients and listing succeed requests links for a prefix, in order, of the `.mov` files of the listing that are not in the ledger. Unless the quota error ends the run, it requests links for all of them. No call is about any other name. |
| Transfer.RunRecordsUploadedIds | transfer.py:398-448 | Every name a run saved has a `videos` entry holding the id that `upload_video` returned for a listed `.mov` file of that name, and the time of that save. |
| Transfer.RunGuarantees | transfer.py:393-461 | A whole run makes no call for a ledgered name, and its successes equal its saves. Successes plus failures equal the link requests, minus one for the file whose upload met the quota error. The final ledger is the loaded one plus the saved names, each saved name with a `videos` entry and other entries untouched. The working directory changes only for processed names, and a file leaves it only after its name was saved. |
| Transfer.EmptyListing | transfer.py:407-409 | An empty listing ends with status 0, with no call made and the ledger untouched. |
| Transfer.QuotaOnFirstUpload | transfer.py:284-286 | A new file whose first upload attempt meets the quota error gives exit status 1, no ledger change, and the downloaded file left on disk. |
| Transfer.RateLimitedThenUploaded | transfer.py:287-291 | A new file rate-limited once and then uploaded is counted as one success. The ledger gains it, with `videos[name]` holding the returned id and the save's time, and the local copy is deleted. |

## Left out

- OAuth authentication (`_authenticate`, transfer.py:191-226): interactive and bound to the Google libraries. Client construction is reduced to one success flag.
- The HTTP requests, `MediaFileUpload` and the API request body (title, description, tags, category, privacy): these are foreign calls or data with no effect on control flow. Each exchange is a scripted outcome.
- The link request's own failure modes: `get_download_link` is one success flag per file.
- Decoding the `HttpError` body into a reason (transfer.py:281-282): the reason is an abstract string. A body that fails to decode raises out of `upload_video` and is not modelled.
- Exceptions outside the modelled handlers crash the process and are not modelled. Examples are an `OSError` from `makedirs` or `open` in `download_file`, a failure writing the ledger, or a listing item without `name`/`path`.
- A ledger document that is not a JSON object, or whose `uploaded_files` is not a list, is not modelled.
- The non-atomic overwrite of the ledger (transfer.py:376): the write is one step.
- Logging, including the progress lines and floating-point percentages of `download_file` (transfer.py:164-167).
- `time.sleep`: each pause is recorded as its number of seconds.
- The `strftime` timestamp: an opaque string supplied by the script.
- `load_dotenv` and the environment-derived configuration (transfer.py:28-51).
- The local path is the bare file name. The working directory is a set of names.
- `Transfer.ProcessFile` consumes the answers of the download and upload loops, not the raw chunk outcomes of each attempt. So the chunk loop's own 2/4/8-second sleeps are not in the run's sleep trace, and a chunk loop still waiting on `next_chunk` (`Stalled`) has no attempt outcome.
- `YouTubeUploader.ChunkAttempts`: a chunk loop still waiting on `next_chunk` when its script runs out is given the placeholder outcome "other exception". No lemma about it depends on that case.
- `YouTubeUploader.Response`: a response whose `id` key holds JSON `null` is not represented. An `id` is either absent or a string.
- `Base.Lower` lower-cases ASCII letters only. For the `.mov` suffix test this is exact. The only non-ASCII characters Python lowers to ASCII are U+212A (to `k`) and U+0130. U+0130 lowers to `i` followed by U+0307, and U+0307 is not a suffix letter.

=== FILE: base.dfy ===
/** Shared vocabulary for the transfer model: an optional value, order-keeping
    filtering of sequences, and the few `str` operations the script relies on. */
module Base {

  /** A value that may be missing; Python's `None` on the left. */
  datatype Option<T> = None | Some(value: T)

  /** The elements of `xs` that satisfy `p`, in their original order: the
      model of a Python list comprehension with an `if` clause. */
  function Filter<T(!new)>(xs: seq<T>, p: T -> bool): (r: seq<T>)
    ensures |r| <= |xs|
    ensures forall x :: x in r <==> x in xs && p(x)
  {
    if xs == [] then []
    else if p(xs[0]) then [xs[0]] + Filter(xs[1..], p)
    else Filter(xs[1..], p)
  }

  /** Filtering distributes over concatenation, so the kept elements appear
      in exactly the order of the input. */
  lemma {:induction false} FilterAppend<T(!new)>(xs: seq<T>, ys: seq<T>, p: T -> bool)
    ensures Filter(xs + ys, p) == Filter(xs, p) + Filter(ys, p)
  {
    if xs == [] {
      assert xs + ys == ys;
    } else {
      assert (xs + ys)[0] == xs[0];
      assert (xs + ys)[1..] == xs[1..] + ys;
      FilterAppend(xs[1..], ys, p);
    }
  }

  /** Python's `s.startswith(prefix)`. */
  predicate StartsWith(s: string, prefix: string) {
    |prefix| <= |s| && s[..|prefix|] == prefix
  }

  /** Python's `s.endswith(suffix)`. */
  predicate EndsWith(s: string, suffix: string) {
    |suffix| <= |s| && s[|s| - |suffix|..] == suffix
  }

  /** Lower-casing of one character, for the ASCII letters. */
  function LowerChar(c: char): char {
    if 'A' <= c <= 'Z' then (c as int + 32) as char else c
  }

  /** Python's `s.lower()`, restricted to ASCII letters. */
  function Lower(s: string): string {
    seq(|s|, i requires 0 <= i < |s| => LowerChar(s[i]))
  }
}

=== FILE: transfer.dfy ===
/** The orchestrator `main`: load the ledger, list the folder, keep the
    `.mov` files, and for each one not yet uploaded get a download link,
    download, upload, record and clean up -- one file at a time. The run is
    a fold over the candidate list; every external effect is recorded in a
    trace of calls, so that what was (and was not) invoked can be stated. */
module Transfer {
  import opened Base
  import opened UploadLedger
  import opened YandexDiskClient
  import opened YouTubeUploader

  const TargetExtension := ".mov"

  /** `name.lower().endswith('.mov')`. */
  predicate IsMov(name: string) {
    EndsWith(Lower(name), TargetExtension)
  }

  predicate IsMovItem(item: Item) {
    IsMov(item.name)
  }

  /** The listing items `main` considers, in listing order. */
  function MovFiles(files: seq<Item>): (r: seq<Item>)
    ensures forall it :: it in r <==> it in files && IsMov(it.name)
  {
    Filter(files, IsMovItem)
  }

  /** The suffix test is case-insensitive in each of the three letters and
      nothing else: the dot must be a dot. */
  lemma MovSuffix(name: string)
    ensures IsMov(name) <==>
      |name| >= 4 && name[|name| - 4] == '.' &&
      name[|name| - 3] in {'m', 'M'} && name[|name| - 2] in {'o', 'O'} && name[|name| - 1] in {'v', 'V'}
  {
    var low := Lower(name);
    if |name| >= 4 {
      assert low[|low| - 4..] == [low[|name| - 4], low[|name| - 3], low[|name| - 2], low[|name| - 1]];
    }
  }

  // ------------------------------------------------------------ the trace

  /** The external operations of one file's processing: the link request,
      the download, the upload, the ledger save and the local delete. */
  datatype Op = GetLink | Download | Upload | Save | Remove

  datatype Call = Call(op: Op, name: string)

  /** How many calls of one kind a trace holds. */
  function CountOp(calls: seq<Call>, op: Op): nat {
    if calls == [] then 0
    else (if calls[0].op == op then 1 else 0) + CountOp(calls[1..], op)
  }

  lemma {:induction false} CountOpAppend(xs: seq<Call>, ys: seq<Call>, op: Op)
    ensures CountOp(xs + ys, op) == CountOp(xs, op) + CountOp(ys, op)
  {
    if xs == [] {
      assert xs + ys == ys;
    } else {
      assert (xs + ys)[1..] == xs[1..] + ys;
      CountOpAppend(xs[1..], ys, op);
    }
  }

  /** The names passed to `get_download_link`, in call order. */
  function LinkNames(calls: seq<Call>): seq<string> {
    if calls == [] then []
    else (if calls[0].op == GetLink then [calls[0].name] else []) + LinkNames(calls[1..])
  }

  lemma {:induction false} LinkNamesAppend(xs: seq<Call>, ys: seq<Call>)
    ensures LinkNames(xs + ys) == LinkNames(xs) + LinkNames(ys)
  {
    if xs == [] {
      assert xs + ys == ys;
    } else {
      assert (xs + ys)[0] == xs[0];
      assert (xs + ys)[1..] == xs[1..] + ys;
      LinkNamesAppend(xs[1..], ys);
    }
  }

  /** Every name a trace mentions. */
  function NamesOf(calls: seq<Call>): set<string> {
    set c | c in calls :: c.name
  }

  /** The names recorded in the ledger by a trace. */
  function SavedNames(calls: seq<Call>): set<string> {
    set c | c in calls && c.op == Save :: c.name
  }

  /** Two `videos` maps agree on every key outside `names`. */
  ghost predicate AgreesExcept(m: map<string, VideoRecord>, m0: map<string, VideoRecord>, names: set<string>) {
    forall k :: k !in names ==> (k in m <==> k in m0) && (k in m ==> m[k] == m0[k])
  }

  // ------------------------------------------------------------- one file

  /** The scripted answers for one candidate: whether the link request
      succeeds, each download attempt's outcome, each upload attempt's
      outcome, the timestamp a save would record, and whether deleting the
      local copy succeeds. */
  datatype FileScript = FileScript(
    linkOk: bool,
    download: nat -> DownloadAttempt,
    upload: nat -> AttemptOutcome,
    uploadedAt: string,
    removeOk: bool)

  /** What the collaborators answer for one candidate, once their own
      retry loops have run: the link request's success, the result of
      `download_file`, the result of `upload_video`, the save's timestamp
      and the delete's success. */
  datatype Answers = Answers(
    linkOk: bool,
    download: DownloadRun,
    upload: UploadRun,
    uploadedAt: string,
    removeOk: bool)

  /** The answers a script produces: the download and upload results are
      those of the two retry loops run on the scripted attempts. */
  function AnswersFor(script: FileScript): Answers {
    Answers(script.linkOk, DownloadFile(script.download), UploadVideo(script.upload),
            script.uploadedAt, script.removeOk)
  }

  /** The answers for the candidate at each position of the `.mov` list. */
  function AnswersOf(scripts: nat -> FileScript): nat -> Answers {
    (i: nat) => AnswersFor(scripts(i))
  }

  /** The run's state: the two counters, the ledger file, the names present
      in the working directory, the trace of calls, the sleeps taken by the
      download and upload retry loops, and whether the quota error has
      ended the process. */
  datatype State = State(
    succeeded: nat,
    failed: nat,
    ledger: LedgerFile,
    local: set<string>,
    calls: seq<Call>,
    sleeps: seq<nat>,
    fatal: bool)

  /** One iteration of the `for file_info in mov_files` loop. */
  function ProcessFile(item: Item, done: set<string>, a: Answers, st: State): (r: State)
    ensures |st.calls| <= |r.calls| && r.calls[..|st.calls|] == st.calls
    ensures item.name in done ==> r == st
    ensures st.fatal ==> r.fatal
  {
    var name := item.name;
    if name in done then st
    else if !a.linkOk then
      st.(failed := st.failed + 1, calls := st.calls + [Call(GetLink, name)])
    else
      var dl := a.download;
      var st1 := st.(calls := st.calls + [Call(GetLink, name), Call(Download, name)],
                     sleeps := st.sleeps + dl.sleeps,
                     local := if dl.wrote then st.local + {name} else st.local);
      if !dl.ok then st1.(failed := st1.failed + 1)
      else
        var up := a.upload;
        var st2 := st1.(calls := st1.calls + [Call(Upload, name)], sleeps := st1.sleeps + up.sleeps);
        match up.outcome
        case QuotaFatal => st2.(fatal := true)
        case NotUploaded => st2.(failed := st2.failed + 1)
        case Uploaded(id) =>
          // `if video_id:` -- an empty id counts as a failed upload
          if id == "" then st2.(failed := st2.failed + 1)
          else
            st2.(ledger := Stored(SaveUploaded(st2.ledger, name, id, a.uploadedAt)),
                 succeeded := st2.succeeded + 1,
                 calls := st2.calls + [Call(Save, name), Call(Remove, name)],
                 local := if a.removeOk then st2.local - {name} else st2.local)
  }

  /** Whether the upload of this file produced a video id `main` accepts. */
  predicate UploadSucceeds(a: Answers) {
    a.upload.outcome.Uploaded? && a.upload.outcome.videoId != ""
  }

  /** The calls of one iteration, in order: nothing for a name already in
      the ledger; then the link request; the download only once a link was
      obtained; the upload only after a successful download; and the save
      and the delete only after an upload that returned an id. */
  lemma StepTrace(item: Item, done: set<string>, a: Answers, st: State)
    ensures var added := ProcessFile(item, done, a, st).calls[|st.calls|..];
      var L, D, U, S, R := Call(GetLink, item.name), Call(Download, item.name),
        Call(Upload, item.name), Call(Save, item.name), Call(Remove, item.name);
      && (item.name in done ==> added == [])
      && (item.name !in done && !a.linkOk ==> added == [L])
      && (item.name !in done && a.linkOk && !a.download.ok ==> added == [L, D])
      && (item.name !in done && a.linkOk && a.download.ok ==>
            added == (if UploadSucceeds(a) then [L, D, U, S, R] else [L, D, U]))
  {
  }

  /** The counters after one iteration: a processed file moves exactly one
      of them -- the success counter exactly when the upload returned an
      id -- except when the quota error ends the process, which moves
      neither. */
  lemma StepCounters(item: Item, done: set<string>, a: Answers, st: State)
    requires !st.fatal
    ensures var r := ProcessFile(item, done, a, st);
      var processed := item.name !in done && a.linkOk && a.download.ok;
      && (r.fatal <==> processed && a.upload.outcome.QuotaFatal?)
      && (r.fatal ==> r.succeeded == st.succeeded && r.failed == st.failed)
      && (!r.fatal ==> r.succeeded + r.failed == st.succeeded + st.failed + (if item.name in done then 0 else 1))
      && (r.succeeded == st.succeeded + (if processed && UploadSucceeds(a) then 1 else 0))
  {
  }

  /** Whether `rec` is the record `main` saves for a file with answers
      `a`: the link and the download succeeded, and the upload returned the
      non-empty id that `rec` holds, with the save's timestamp. */
  predicate SavedBy(a: Answers, rec: VideoRecord) {
    a.linkOk && a.download.ok && UploadSucceeds(a)
    && rec == VideoRecord(a.upload.outcome.videoId, a.uploadedAt)
  }

  /** The ledger after one iteration: rewritten by a save of this file's
      name exactly when the upload returned an id, untouched otherwise. The
      save appends the name to `uploaded_files` and records under
      `videos[name]` the id `upload_video` returned. */
  lemma StepLedger(item: Item, done: set<string>, a: Answers, st: State)
    ensures var r := ProcessFile(item, done, a, st);
      var saved := item.name !in done && a.linkOk && a.download.ok
                   && UploadSucceeds(a);
      && (!saved ==> r.ledger == st.ledger)
      && (saved ==> FilesOf(Current(r.ledger)) == FilesOf(Current(st.ledger)) + [item.name])
      && (saved ==> item.name in VideosOf(Current(r.ledger))
                    && SavedBy(a, VideosOf(Current(r.ledger))[item.name]))
      && (saved ==> LoadUploaded(r.ledger) == LoadUploaded(st.ledger) + {item.name})
      && (saved ==> AgreesExcept(VideosOf(Current(r.ledger)), VideosOf(Current(st.ledger)), {item.name}))
  {
    var r := ProcessFile(item, done, a, st);
    if item.name !in done && a.linkOk && a.download.ok && UploadSucceeds(a) {
      var id := a.upload.outcome.videoId;
      assert r.ledger == Stored(SaveUploaded(st.ledger, item.name, id, a.uploadedAt));
      LoadAfterSave(st.ledger, item.name, id, a.uploadedAt);
    }
  }

  /** The working directory after one iteration: only this file's name can
      change. It appears only through a download that wrote it -- a
      partial download that then failed included -- and it leaves only
      through the delete after an upload that returned an id, so a failed
      link request or upload never removes it. */
  lemma StepLocal(item: Item, done: set<string>, a: Answers, st: State)
    ensures var r := ProcessFile(item, done, a, st);
      && (forall n :: n != item.name ==> (n in r.local <==> n in st.local))
      && (item.name in st.local && item.name !in r.local ==>
            item.name !in done && a.linkOk && a.download.ok && UploadSucceeds(a) && a.removeOk)
      && (item.name !in st.local && item.name in r.local ==>
            item.name !in done && a.linkOk && a.download.wrote)
      && (var linked := item.name !in done && a.linkOk;
          item.name in r.local <==>
            (item.name in st.local || (linked && a.download.wrote))
            && !(linked && a.download.ok && UploadSucceeds(a) && a.removeOk))
  {
  }

  /** The sleeps of one iteration: the download's back-off once a link was
      obtained, then the upload's back-off once the download succeeded. */
  lemma StepSleeps(item: Item, done: set<string>, a: Answers, st: State)
    ensures var r := ProcessFile(item, done, a, st);
      var linked := item.name !in done && a.linkOk;
      r.sleeps == st.sleeps + (if linked then a.download.sleeps else [])
                            + (if linked && a.download.ok then a.upload.sleeps else [])
  {
  }

  /** A downloaded file whose upload failed stays on disk for a manual
      retry; after a successful upload it is gone unless the delete failed. */
  lemma LocalCopyAfterUpload(item: Item, done: set<string>, script: FileScript, st: State)
    ensures var a := AnswersFor(script);
      var r := ProcessFile(item, done, a, st);
      var downloaded := item.name !in done && script.linkOk && DownloadFile(script.download).ok;
      && (downloaded && !UploadSucceeds(a) ==> item.name in r.local)
      && (downloaded && UploadSucceeds(a) ==> (item.name in r.local <==> !script.removeOk))
  {
  }

  /** The calls a later iteration appends split off cleanly. */
  lemma SliceSplit(xs: seq<Call>, ys: seq<Call>, zs: seq<Call>)
    requires |xs| <= |ys| && ys[..|xs|] == xs
    requires |ys| <= |zs| && zs[..|ys|] == ys
    ensures zs[|xs|..] == ys[|xs|..] + zs[|ys|..]
  {
  }

  /** One call's contribution to a count. */
  lemma CountOpOne(c: Call, op: Op)
    ensures CountOp([c], op) == (if c.op == op then 1 else 0)
  {
    assert [c][1..] == [];
  }

  /** Every call one file can make, in the order `main` makes them. */
  function FullTrace(name: string): seq<Call> {
    [Call(GetLink, name), Call(Download, name), Call(Upload, name), Call(Save, name), Call(Remove, name)]
  }

  /** The counts of the first `k` calls of a file's full trace. */
  lemma {:induction false} TracePrefixCounts(name: string, k: nat)
    requires k <= 5
    ensures var calls := FullTrace(name)[..k];
      && CountOp(calls, GetLink) == (if k >= 1 then 1 else 0)
      && CountOp(calls, Save) == (if k >= 4 then 1 else 0)
  {
    var full := FullTrace(name);
    if k == 0 {
      assert full[..k] == [];
    } else {
      TracePrefixCounts(name, k - 1);
      var c := full[k - 1];
      assert full[..k] == full[..k - 1] + [c];
      CountOpAppend(full[..k - 1], [c], GetLink);
      CountOpAppend(full[..k - 1], [c], Save);
      CountOpOne(c, GetLink);
      CountOpOne(c, Save);
    }
  }

  /** The names mentioned by the first `k` calls of a file's full trace. */
  lemma TracePrefixNames(name: string, k: nat)
    requires k <= 5
    ensures var calls := FullTrace(name)[..k];
      && SavedNames(calls) == (if k >= 4 then {name} else {})
      && NamesOf(calls) == (if k >= 1 then {name} else {})
  {
    var full := FullTrace(name);
    var calls := full[..k];
    assert forall i :: 0 <= i < k ==> calls[i] == full[i];
    assert forall c :: c in calls ==> c.name == name;
    assert forall c :: c in calls && c.op == Save ==> c == full[3];
    if k >= 1 {
      assert calls[0] in calls;
    }
    if k >= 4 {
      assert calls[3] in calls;
    }
  }

  /** The call counts of one iteration: one link request per processed
      file, one save per upload that returned an id, and no call about any
      other name. */
  lemma StepCounts(item: Item, done: set<string>, a: Answers, st: State)
    ensures var r := ProcessFile(item, done, a, st);
      var added := r.calls[|st.calls|..];
      var saved := item.name !in done && a.linkOk && a.download.ok
                   && UploadSucceeds(a);
      && CountOp(added, GetLink) == (if item.name in done then 0 else 1)
      && CountOp(added, Save) == (if saved then 1 else 0)
      && SavedNames(added) == (if saved then {item.name} else {})
      && NamesOf(added) == (if item.name in done then {} else {item.name})
  {
    StepTrace(item, done, a, st);
    var name := item.name;
    var added := ProcessFile(item, done, a, st).calls[|st.calls|..];
    var full := FullTrace(name);
    var k :=
      if name in done then 0
      else if !a.linkOk then 1
      else if !a.download.ok then 2
      else if !UploadSucceeds(a) then 3
      else 5;
    assert added == full[..k];
    TracePrefixCounts(name, k);
    TracePrefixNames(name, k);
  }

  /** The link requests of the first `k` calls of a file's full trace. */
  lemma TracePrefixLinks(name: string, k: nat)
    requires k <= 5
    ensures LinkNames(FullTrace(name)[..k]) == (if k >= 1 then [name] else [])
  {
    var full := FullTrace(name);
    var calls := full[..k];
    if k >= 1 {
      assert calls == [full[0]] + calls[1..];
      assert LinkNames(calls) == [name] + LinkNames(calls[1..]);
      var tail := calls[1..];
      assert forall i :: 0 <= i < |tail| ==> tail[i].op != GetLink;
      NoLinks(tail);
    } else {
      assert calls == [];
    }
  }

  lemma {:induction false} NoLinks(calls: seq<Call>)
    requires forall i :: 0 <= i < |calls| ==> calls[i].op != GetLink
    ensures LinkNames(calls) == []
  {
    if calls != [] {
      NoLinks(calls[1..]);
    }
  }

  /** One iteration requests a link for its file exactly when the name is
      not in the ledger, and for no other name. */
  lemma StepLinks(item: Item, done: set<string>, a: Answers, st: State)
    ensures LinkNames(ProcessFile(item, done, a, st).calls[|st.calls|..]) ==
      (if item.name in done then [] else [item.name])
  {
    StepTrace(item, done, a, st);
    var name := item.name;
    var added := ProcessFile(item, done, a, st).calls[|st.calls|..];
    var full := FullTrace(name);
    var k :=
      if name in done then 0
      else if !a.linkOk then 1
      else if !a.download.ok then 2
      else if !UploadSucceeds(a) then 3
      else 5;
    assert added == full[..k];
    TracePrefixLinks(name, k);
  }

  // Each fold lemma below rests on the one-iteration instance of its own
  // invariant, stated over the trace alone.

  lemma StepKeepsNames(item: Item, done: set<string>, a: Answers, st: State)
    ensures var r := ProcessFile(item, done, a, st);
      NamesOf(r.calls) == NamesOf(st.calls) + NamesOf(r.calls[|st.calls|..]) &&
      NamesOf(r.calls[|st.calls|..]) !! done
  {
    var r := ProcessFile(item, done, a, st);
    assert r.calls == st.calls + r.calls[|st.calls|..];
    NamesOfAppend(st.calls, r.calls[|st.calls|..]);
    StepCounts(item, done, a, st);
  }

  lemma StepCountsCalls(item: Item, done: set<string>, a: Answers, st: State)
    requires !st.fatal
    ensures var r := ProcessFile(item, done, a, st);
      var added := r.calls[|st.calls|..];
      && r.succeeded == st.succeeded + CountOp(added, Save)
      && (!r.fatal ==> r.succeeded + r.failed == st.succeeded + st.failed + CountOp(added, GetLink))
      && (r.fatal ==> r.succeeded + r.failed + 1 == st.succeeded + st.failed + CountOp(added, GetLink))
  {
    StepCounts(item, done, a, st);
    StepCounters(item, done, a, st);
  }

  lemma StepLedgerCalls(item: Item, done: set<string>, a: Answers, st: State)
    ensures var r := ProcessFile(item, done, a, st);
      var added := r.calls[|st.calls|..];
      && LoadUploaded(r.ledger) == LoadUploaded(st.ledger) + SavedNames(added)
      && AgreesExcept(VideosOf(Current(r.ledger)), VideosOf(Current(st.ledger)), SavedNames(added))
  {
    StepCounts(item, done, a, st);
    StepLedger(item, done, a, st);
  }

  lemma StepRecordCalls(item: Item, done: set<string>, a: Answers, st: State)
    ensures var r := ProcessFile(item, done, a, st);
      var v := VideosOf(Current(r.ledger));
      forall n :: n in SavedNames(r.calls[|st.calls|..]) ==> n == item.name && n in v && SavedBy(a, v[n])
  {
    StepCounts(item, done, a, st);
    StepLedger(item, done, a, st);
  }

  lemma StepLocalCalls(item: Item, done: set<string>, a: Answers, st: State)
    ensures var r := ProcessFile(item, done, a, st);
      && (forall n :: n !in NamesOf(r.calls[|st.calls|..]) ==> (n in r.local <==> n in st.local))
      && (forall n :: n in st.local && n !in r.local ==> n in SavedNames(r.calls[|st.calls|..]))
  {
    StepCounts(item, done, a, st);
    StepLocal(item, done, a, st);
  }

  lemma StepQuotaCalls(item: Item, done: set<string>, a: Answers, st: State)
    requires !st.fatal
    ensures var r := ProcessFile(item, done, a, st);
      r.fatal ==> |r.calls| > 0 && r.calls[|r.calls| - 1].op == Upload
  {
    var r := ProcessFile(item, done, a, st);
    if r.fatal {
      StepCounters(item, done, a, st);
      StepTrace(item, done, a, st);
      assert r.calls == st.calls + r.calls[|st.calls|..];
    }
  }

  // ------------------------------------------------------------- the fold

  /** The loop over the candidates from position `index` of the `.mov`
      list onward; the quota error stops it where it happens. */
  function ProcessAll(cands: seq<Item>, index: nat, done: set<string>, answers: nat -> Answers, st: State): (r: State)
    ensures |st.calls| <= |r.calls| && r.calls[..|st.calls|] == st.calls
    ensures st.fatal ==> r == st
    decreases |cands|
  {
    if cands == [] || st.fatal then st
    else ProcessAll(cands[1..], index + 1, done, answers, ProcessFile(cands[0], done, answers(index), st))
  }

  /** A name already in the ledger when the run started is never passed to
      `get_download_link`, `download_file`, `upload_video`, the ledger save
      or the local delete. */
  lemma {:induction false} SkipsLedgeredNames(cands: seq<Item>, index: nat, done: set<string>, answers: nat -> Answers, st: State)
    requires NamesOf(st.calls) !! done
    ensures NamesOf(ProcessAll(cands, index, done, answers, st).calls) !! done
  {
    if cands != [] && !st.fatal {
      var mid := ProcessFile(cands[0], done, answers(index), st);
      StepKeepsNames(cands[0], done, answers(index), st);
      SkipsLedgeredNames(cands[1..], index + 1, done, answers, mid);
    }
  }

  /** Every processed candidate moves exactly one of the two counters, and
      the success counter moves exactly with the ledger saves: each link
      request in the trace stands for one processed file. */
  lemma {:induction false} CountersAccount(cands: seq<Item>, index: nat, done: set<string>, answers: nat -> Answers, st: State)
    ensures var r := ProcessAll(cands, index, done, answers, st);
      var added := r.calls[|st.calls|..];
      && r.succeeded == st.succeeded + CountOp(added, Save)
      && (!r.fatal ==> r.succeeded + r.failed == st.succeeded + st.failed + CountOp(added, GetLink))
      && (r.fatal && !st.fatal ==> r.succeeded + r.failed + 1 == st.succeeded + st.failed + CountOp(added, GetLink))
  {
    var r := ProcessAll(cands, index, done, answers, st);
    if cands == [] || st.fatal {
      assert r.calls[|st.calls|..] == [];
    } else {
      var mid := ProcessFile(cands[0], done, answers(index), st);
      CountersAccount(cands[1..], index + 1, done, answers, mid);
      var step := mid.calls[|st.calls|..];
      var later := r.calls[|mid.calls|..];
      SliceSplit(st.calls, mid.calls, r.calls);
      CountOpAppend(step, later, Save);
      CountOpAppend(step, later, GetLink);
      StepCountsCalls(cands[0], done, answers(index), st);
    }
  }

  /** Load-merge-write across the run: loading the ledger afterwards gives
      the names loaded before plus exactly the names saved during the run. */
  lemma {:induction false} LedgerGainsSavedNames(cands: seq<Item>, index: nat, done: set<string>, answers: nat -> Answers, st: State)
    ensures var r := ProcessAll(cands, index, done, answers, st);
      LoadUploaded(r.ledger) == LoadUploaded(st.ledger) + SavedNames(r.calls[|st.calls|..])
  {
    var r := ProcessAll(cands, index, done, answers, st);
    if cands == [] || st.fatal {
      assert r.calls[|st.calls|..] == [];
    } else {
      var mid := ProcessFile(cands[0], done, answers(index), st);
      LedgerGainsSavedNames(cands[1..], index + 1, done, answers, mid);
      var step := mid.calls[|st.calls|..];
      var later := r.calls[|mid.calls|..];
      SliceSplit(st.calls, mid.calls, r.calls);
      SavedNamesAppend(step, later);
      StepLedgerCalls(cands[0], done, answers(index), st);
    }
  }

  /** Every `videos` entry of a name not saved during the run is left
      exactly as it was. */
  lemma {:induction false} LedgerKeepsOtherEntries(cands: seq<Item>, index: nat, done: set<string>, answers: nat -> Answers, st: State)
    ensures var r := ProcessAll(cands, index, done, answers, st);
      AgreesExcept(VideosOf(Current(r.ledger)), VideosOf(Current(st.ledger)), SavedNames(r.calls[|st.calls|..]))
  {
    var r := ProcessAll(cands, index, done, answers, st);
    if cands == [] || st.fatal {
      assert r.calls[|st.calls|..] == [];
    } else {
      var mid := ProcessFile(cands[0], done, answers(index), st);
      LedgerKeepsOtherEntries(cands[1..], index + 1, done, answers, mid);
      var step := mid.calls[|st.calls|..];
      var later := r.calls[|mid.calls|..];
      SliceSplit(st.calls, mid.calls, r.calls);
      SavedNamesAppend(step, later);
      StepLedgerCalls(cands[0], done, answers(index), st);
    }
  }

  /** Whether `rec` is the record saved for some candidate named `n`,
      the candidates' answers starting at position `index`. */
  ghost predicate RecordFrom(cands: seq<Item>, index: nat, answers: nat -> Answers, n: string, rec: VideoRecord) {
    exists i :: 0 <= i < |cands| && cands[i].name == n && SavedBy(answers(index + i), rec)
  }

  lemma RecordFromHead(cands: seq<Item>, index: nat, answers: nat -> Answers, rec: VideoRecord)
    requires cands != [] && SavedBy(answers(index), rec)
    ensures RecordFrom(cands, index, answers, cands[0].name, rec)
  {
    assert index + 0 == index;
  }

  lemma RecordFromLater(cands: seq<Item>, index: nat, answers: nat -> Answers, n: string, rec: VideoRecord)
    requires cands != [] && RecordFrom(cands[1..], index + 1, answers, n, rec)
    ensures RecordFrom(cands, index, answers, n, rec)
  {
    var j :| 0 <= j < |cands[1..]| && cands[1..][j].name == n && SavedBy(answers(index + 1 + j), rec);
    assert cands[j + 1] == cands[1..][j] && index + (j + 1) == index + 1 + j;
  }

  /** Every name saved during the run ends with a `videos` entry, and that
      entry is the record saved for some candidate of that name: the id its
      upload returned and the time of its save. (When a name occurs twice
      among the candidates, the later save wins.) */
  lemma {:induction false} SavedRecordsFromUploads(cands: seq<Item>, index: nat, done: set<string>, answers: nat -> Answers, st: State)
    ensures var r := ProcessAll(cands, index, done, answers, st);
      var v := VideosOf(Current(r.ledger));
      forall n :: n in SavedNames(r.calls[|st.calls|..]) ==> n in v && RecordFrom(cands, index, answers, n, v[n])
  {
    var r := ProcessAll(cands, index, done, answers, st);
    if cands == [] || st.fatal {
      assert r.calls[|st.calls|..] == [];
    } else {
      var mid := ProcessFile(cands[0], done, answers(index), st);
      SavedRecordsFromUploads(cands[1..], index + 1, done, answers, mid);
      LedgerKeepsOtherEntries(cands[1..], index + 1, done, answers, mid);
      var step := mid.calls[|st.calls|..];
      var later := r.calls[|mid.calls|..];
      SliceSplit(st.calls, mid.calls, r.calls);
      SavedNamesAppend(step, later);
      StepRecordCalls(cands[0], done, answers(index), st);
      var v := VideosOf(Current(r.ledger));
      forall n | n in SavedNames(step + later)
        ensures n in v && RecordFrom(cands, index, answers, n, v[n])
      {
        if n in SavedNames(later) {
          RecordFromLater(cands, index, answers, n, v[n]);
        } else {
          RecordFromHead(cands, index, answers, v[n]);
        }
      }
    }
  }

  lemma SavedNamesAppend(xs: seq<Call>, ys: seq<Call>)
    ensures SavedNames(xs + ys) == SavedNames(xs) + SavedNames(ys)
  {
  }

  lemma NamesOfAppend(xs: seq<Call>, ys: seq<Call>)
    ensures NamesOf(xs + ys) == NamesOf(xs) + NamesOf(ys)
  {
  }

  /** The working directory changes only for names the run processed:
      a name with no call in the trace is present afterwards exactly when
      it was present before. */
  lemma {:induction false} LocalFilesOfOthersUntouched(cands: seq<Item>, index: nat, done: set<string>, answers: nat -> Answers, st: State)
    ensures var r := ProcessAll(cands, index, done, answers, st);
      forall n :: n !in NamesOf(r.calls[|st.calls|..]) ==> (n in r.local <==> n in st.local)
  {
    var r := ProcessAll(cands, index, done, answers, st);
    if cands != [] && !st.fatal {
      var mid := ProcessFile(cands[0], done, answers(index), st);
      LocalFilesOfOthersUntouched(cands[1..], index + 1, done, answers, mid);
      var step := mid.calls[|st.calls|..];
      var later := r.calls[|mid.calls|..];
      SliceSplit(st.calls, mid.calls, r.calls);
      NamesOfAppend(step, later);
      StepLocalCalls(cands[0], done, answers(index), st);
    }
  }

  /** A file leaves the working directory only after its name was saved to
      the ledger: whatever fails before that keeps the local copy. */
  lemma {:induction false} LocalFilesLeaveOnlyWhenSaved(cands: seq<Item>, index: nat, done: set<string>, answers: nat -> Answers, st: State)
    ensures var r := ProcessAll(cands, index, done, answers, st);
      forall n :: n in st.local && n !in r.local ==> n in SavedNames(r.calls[|st.calls|..])
  {
    var r := ProcessAll(cands, index, done, answers, st);
    if cands != [] && !st.fatal {
      var mid := ProcessFile(cands[0], done, answers(index), st);
      LocalFilesLeaveOnlyWhenSaved(cands[1..], index + 1, done, answers, mid);
      var step := mid.calls[|st.calls|..];
      var later := r.calls[|mid.calls|..];
      SliceSplit(st.calls, mid.calls, r.calls);
      SavedNamesAppend(step, later);
      StepLocalCalls(cands[0], done, answers(index), st);
    }
  }

  /** The quota error ends the run on the spot: the last call is the upload
      that hit it, with nothing recorded or deleted after it and no later
      file touched. */
  lemma {:induction false} QuotaEndsTheRun(cands: seq<Item>, index: nat, done: set<string>, answers: nat -> Answers, st: State)
    requires !st.fatal
    ensures var r := ProcessAll(cands, index, done, answers, st);
      r.fatal ==> |r.calls| > 0 && r.calls[|r.calls| - 1].op == Upload
  {
    if cands != [] {
      var mid := ProcessFile(cands[0], done, answers(index), st);
      StepQuotaCalls(cands[0], done, answers(index), st);
      if !mid.fatal {
        QuotaEndsTheRun(cands[1..], index + 1, done, answers, mid);
      }
    }
  }

  /** The names `main` has to process, in the order it meets them: every
      candidate whose name was not in the ledger at the start. */
  function Pending(cands: seq<Item>, done: set<string>): (r: seq<string>)
    ensures |r| <= |cands|
    ensures forall n :: n in r ==> n !in done
    ensures forall it :: it in cands && it.name !in done ==> it.name in r
    ensures forall n :: n in r ==> exists it :: it in cands && it.name == n
  {
    if cands == [] then []
    else (if cands[0].name in done then [] else [cands[0].name]) + Pending(cands[1..], done)
  }

  lemma PendingCons(cands: seq<Item>, done: set<string>)
    requires cands != []
    ensures Pending(cands, done) == (if cands[0].name in done then [] else [cands[0].name]) + Pending(cands[1..], done)
  {
  }

  /** Extending a prefix and its sequence by the same head keeps it a
      prefix. */
  lemma PrefixCons(head: seq<string>, xs: seq<string>, ys: seq<string>)
    requires xs <= ys
    ensures head + xs <= head + ys
  {
    assert (head + ys)[..|head + xs|] == head + ys[..|xs|];
  }

  /** The loop visits the candidates in order: the link requests name the
      pending candidates one by one, all of them unless the quota error
      cut the run short, and then a leading part of them. */
  lemma {:induction false} VisitsPendingInOrder(cands: seq<Item>, index: nat, done: set<string>, answers: nat -> Answers, st: State)
    ensures var r := ProcessAll(cands, index, done, answers, st);
      var links := LinkNames(r.calls[|st.calls|..]);
      && links <= Pending(cands, done)
      && (!r.fatal ==> links == Pending(cands, done))
  {
    var r := ProcessAll(cands, index, done, answers, st);
    if cands == [] || st.fatal {
      assert r.calls[|st.calls|..] == [];
    } else {
      var mid := ProcessFile(cands[0], done, answers(index), st);
      VisitsPendingInOrder(cands[1..], index + 1, done, answers, mid);
      var step := mid.calls[|st.calls|..];
      var later := r.calls[|mid.calls|..];
      SliceSplit(st.calls, mid.calls, r.calls);
      LinkNamesAppend(step, later);
      StepLinks(cands[0], done, answers(index), st);
      PendingCons(cands, done);
      PrefixCons(LinkNames(step), LinkNames(later), Pending(cands[1..], done));
    }
  }

  /** Every call the loop makes is about a pending candidate. */
  lemma {:induction false} CallsOnlyForPending(cands: seq<Item>, index: nat, done: set<string>, answers: nat -> Answers, st: State)
    ensures var r := ProcessAll(cands, index, done, answers, st);
      forall n :: n in NamesOf(r.calls[|st.calls|..]) ==> n in Pending(cands, done)
  {
    var r := ProcessAll(cands, index, done, answers, st);
    if cands == [] || st.fatal {
      assert r.calls[|st.calls|..] == [];
    } else {
      var mid := ProcessFile(cands[0], done, answers(index), st);
      CallsOnlyForPending(cands[1..], index + 1, done, answers, mid);
      var step := mid.calls[|st.calls|..];
      var later := r.calls[|mid.calls|..];
      SliceSplit(st.calls, mid.calls, r.calls);
      NamesOfAppend(step, later);
      StepCounts(cands[0], done, answers(index), st);
      PendingCons(cands, done);
    }
  }

  // ------------------------------------------------------------- the run

  /** Everything `main` depends on: whether both clients initialise, the
      ledger file, the listing outcome, the files already in the working
      directory, and the scripted answers for the candidate at each
      position of the `.mov` list. */
  datatype Env = Env(
    clientsOk: bool,
    ledger: LedgerFile,
    listing: ListOutcome,
    local: set<string>,
    scripts: nat -> FileScript)

  /** How the process ends: after the summary, after "No .mov files found",
      or through `sys.exit(1)`. */
  datatype Exit = Completed | NothingToDo | Exited

  function ExitCode(e: Exit): int {
    if e == Exited then 1 else 0
  }

  datatype RunResult = RunResult(exit: Exit, state: State)

  function Start(env: Env): State {
    State(0, 0, env.ledger, env.local, [], [], false)
  }

  /** `main`. */
  function Run(env: Env): (r: RunResult)
    ensures !env.clientsOk || env.listing.ListFailed? ==> r == RunResult(Exited, Start(env))
    ensures r.exit == Exited <==> !env.clientsOk || env.listing.ListFailed? || r.state.fatal
    ensures r.exit == NothingToDo ==> r.state == Start(env)
    ensures r.exit == NothingToDo <==>
      env.clientsOk && ListFiles(env.listing).Some? && MovFiles(ListFiles(env.listing).value) == []
  {
    if !env.clientsOk then RunResult(Exited, Start(env))
    else
      var done := LoadUploaded(env.ledger);
      match ListFiles(env.listing)
      case None => RunResult(Exited, Start(env))
      case Some(files) =>
        var movs := MovFiles(files);
        if movs == [] then RunResult(NothingToDo, Start(env))
        else
          var fin := ProcessAll(movs, 0, done, AnswersOf(env.scripts), Start(env));
          RunResult(if fin.fatal then Exited else Completed, fin)
  }

  /** What a whole run guarantees: no call for a name loaded from the
      ledger; one counter step per link request, except for the file whose
      upload met the quota error; successes equal to ledger saves; the
      ledger afterwards is the one loaded plus the saved names, other
      entries untouched; the working directory changed only for names the
      run processed, and lost a file only after its name was saved. */
  lemma RunGuarantees(env: Env)
    ensures var r := Run(env); var calls := r.state.calls;
      && (forall c :: c in calls ==> c.name !in LoadUploaded(env.ledger))
      && r.state.succeeded == CountOp(calls, Save)
      && r.state.succeeded + r.state.failed + (if r.state.fatal then 1 else 0) == CountOp(calls, GetLink)
      && LoadUploaded(r.state.ledger) == LoadUploaded(env.ledger) + SavedNames(calls)
      && AgreesExcept(VideosOf(Current(r.state.ledger)), VideosOf(Current(env.ledger)), SavedNames(calls))
      && (forall n :: n !in NamesOf(calls) ==> (n in r.state.local <==> n in env.local))
      && (forall n :: n in env.local && n !in r.state.local ==> n in SavedNames(calls))
      && (forall n :: n in SavedNames(calls) ==> n in VideosOf(Current(r.state.ledger)))
  {
    var r := Run(env);
    var st := Start(env);
    assert CountOp([], Save) == 0 && CountOp([], GetLink) == 0 && SavedNames([]) == {} && NamesOf([]) == {};
    if env.clientsOk {
      match ListFiles(env.listing)
      case None =>
      case Some(files) =>
        var movs := MovFiles(files);
        if movs != [] {
          var done := LoadUploaded(env.ledger);
          assert r.state == ProcessAll(movs, 0, done, AnswersOf(env.scripts), st);
          assert r.state.calls[|st.calls|..] == r.state.calls;
          SkipsLedgeredNames(movs, 0, done, AnswersOf(env.scripts), st);
          CountersAccount(movs, 0, done, AnswersOf(env.scripts), st);
          LedgerGainsSavedNames(movs, 0, done, AnswersOf(env.scripts), st);
          LedgerKeepsOtherEntries(movs, 0, done, AnswersOf(env.scripts), st);
          LocalFilesOfOthersUntouched(movs, 0, done, AnswersOf(env.scripts), st);
          LocalFilesLeaveOnlyWhenSaved(movs, 0, done, AnswersOf(env.scripts), st);
          SavedRecordsFromUploads(movs, 0, done, AnswersOf(env.scripts), st);
        }
    }
  }

  /** Which files a run touches: once the listing succeeds, the link
      requests name the listed `.mov` files not yet in the ledger, in
      listing order -- all of them when the run completes, a leading part
      of them when the quota error ends it -- and no call is about any
      other name, so a non-`.mov` item, a directory or a ledgered name
      never gets one. */
  lemma RunVisitsListedMovFiles(env: Env)
    ensures var r := Run(env); var calls := r.state.calls;
      env.clientsOk && ListFiles(env.listing).Some? ==>
        var pending := Pending(MovFiles(ListFiles(env.listing).value), LoadUploaded(env.ledger));
        && LinkNames(calls) <= pending
        && (r.exit != Exited ==> LinkNames(calls) == pending)
        && (forall n :: n in NamesOf(calls) ==> n in pending)
  {
    var r := Run(env);
    var st := Start(env);
    if env.clientsOk && ListFiles(env.listing).Some? {
      var movs := MovFiles(ListFiles(env.listing).value);
      var done := LoadUploaded(env.ledger);
      if movs == [] {
        assert r.state.calls == [];
        assert LinkNames([]) == [] && NamesOf([]) == {};
      } else {
        assert r.state == ProcessAll(movs, 0, done, AnswersOf(env.scripts), st);
        assert r.state.calls[|st.calls|..] == r.state.calls;
        VisitsPendingInOrder(movs, 0, done, AnswersOf(env.scripts), st);
        CallsOnlyForPending(movs, 0, done, AnswersOf(env.scripts), st);
      }
    }
  }

  /** Which record a run writes: every name the run saved has a `videos`
      entry holding the id `upload_video` returned for a listed `.mov`
      file of that name, with the time of that save. */
  lemma RunRecordsUploadedIds(env: Env)
    ensures var r := Run(env); var v := VideosOf(Current(r.state.ledger));
      env.clientsOk && ListFiles(env.listing).Some? ==>
        forall n :: n in SavedNames(r.state.calls) ==>
          n in v && RecordFrom(MovFiles(ListFiles(env.listing).value), 0, AnswersOf(env.scripts), n, v[n])
  {
    var r := Run(env);
    var st := Start(env);
    assert SavedNames([]) == {};
    if env.clientsOk {
      match ListFiles(env.listing)
      case None =>
      case Some(files) =>
        var movs := MovFiles(files);
        if movs != [] {
          var done := LoadUploaded(env.ledger);
          assert r.state == ProcessAll(movs, 0, done, AnswersOf(env.scripts), st);
          assert r.state.calls[|st.calls|..] == r.state.calls;
          SavedRecordsFromUploads(movs, 0, done, AnswersOf(env.scripts), st);
        }
    }
  }

  // ------------------------------------------------------------ scenarios

  /** An empty listing: exit code 0, nothing called, the ledger untouched. */
  lemma EmptyListing(env: Env)
    requires env.clientsOk && env.listing == Listed(Some([]))
    ensures Run(env).exit == NothingToDo && ExitCode(Run(env).exit) == 0
    ensures Run(env).state.ledger == env.ledger && Run(env).state.calls == []
  {
  }

  /** One new `.mov` file, downloaded on the first try, whose upload meets
      the quota error at once: exit code 1, no ledger entry, and the
      downloaded file left on disk. */
  lemma QuotaOnFirstUpload(env: Env, item: Item)
    requires env.clientsOk && env.listing == Listed(Some([item]))
    requires IsFile(item) && IsMov(item.name) && item.name !in LoadUploaded(env.ledger)
    requires env.scripts(0).linkOk && env.scripts(0).download(0) == Fetched
    requires env.scripts(0).upload(0) == ApiError(QuotaExceeded)
    ensures ExitCode(Run(env).exit) == 1
    ensures Run(env).state.ledger == env.ledger
    ensures item.name in Run(env).state.local
  {
    assert MovFiles([item]) == [item];
    QuotaStopsImmediately(env.scripts(0).upload);
  }

  /** One new `.mov` file whose upload is rate-limited once and then
      succeeds: one success, the ledger gains the file, and the local copy
      is deleted. */
  lemma RateLimitedThenUploaded(env: Env, item: Item, id: string)
    requires env.clientsOk && env.listing == Listed(Some([item]))
    requires IsFile(item) && IsMov(item.name) && item.name !in LoadUploaded(env.ledger)
    requires env.scripts(0).linkOk && env.scripts(0).download(0) == Fetched
    requires env.scripts(0).upload(0) == ApiError(RateLimitExceeded)
    requires env.scripts(0).upload(1) == Responded(id) && id != ""
    requires env.scripts(0).removeOk
    ensures Run(env).exit == Completed
    ensures Run(env).state.succeeded == 1 && Run(env).state.failed == 0
    ensures LoadUploaded(Run(env).state.ledger) == LoadUploaded(env.ledger) + {item.name}
    ensures item.name !in Run(env).state.local
    ensures item.name in VideosOf(Current(Run(env).state.ledger))
    ensures VideosOf(Current(Run(env).state.ledger))[item.name] == VideoRecord(id, env.scripts(0).uploadedAt)
  {
    assert MovFiles([item]) == [item];
    var a := AnswersFor(env.scripts(0));
    assert a.upload.outcome == Uploaded(id);
    assert a.download.ok;
    var st := Start(env);
    var mid := ProcessFile(item, LoadUploaded(env.ledger), a, st);
    assert ProcessAll([item], 0, LoadUploaded(env.ledger), AnswersOf(env.scripts), st) == mid;
    StepCounters(item, LoadUploaded(env.ledger), a, st);
    StepLedger(item, LoadUploaded(env.ledger), a, st);
    LocalCopyAfterUpload(item, LoadUploaded(env.ledger), env.scripts(0), st);
  }
}

=== FILE: upload_ledger.dfy ===
/** The completion ledger `uploaded_videos.json`: a list of uploaded file
    names plus a per-file record of the video id and upload time. JSON
    encoding is abstracted away; the file is either absent, unreadable, or
    holds a document whose two top-level keys may each be missing. */
module UploadLedger {
  import opened Base

  datatype VideoRecord = VideoRecord(videoId: string, uploadedAt: string)

  /** The parsed document; `None` stands for a missing top-level key. */
  datatype Document = Document(uploadedFiles: Option<seq<string>>, videos: Option<map<string, VideoRecord>>)

  datatype LedgerFile = Absent | Unreadable | Stored(doc: Document)

  /** The document `save_uploaded_video` starts from: the file's contents
      when it parses, otherwise the empty document. */
  function Current(f: LedgerFile): (d: Document)
    ensures f.Stored? ==> d == f.doc
    ensures !f.Stored? ==> d == Document(Some([]), Some(map[]))
  {
    if f.Stored? then f.doc else Document(Some([]), Some(map[]))
  }

  /** The `uploaded_files` list, empty when the key is missing. */
  function FilesOf(d: Document): seq<string> {
    if d.uploadedFiles.Some? then d.uploadedFiles.value else []
  }

  /** The `videos` map, empty when the key is missing. */
  function VideosOf(d: Document): map<string, VideoRecord> {
    if d.videos.Some? then d.videos.value else map[]
  }

  /** `load_uploaded_videos`: the names listed under `uploaded_files`, or
      nothing when the file is absent, unreadable or lacks the key. */
  function LoadUploaded(f: LedgerFile): (r: set<string>)
    ensures !f.Stored? ==> r == {}
    ensures f.Stored? && f.doc.uploadedFiles.None? ==> r == {}
    ensures f.Stored? && f.doc.uploadedFiles.Some? ==>
      forall n :: n in r <==> n in f.doc.uploadedFiles.value
  {
    set n | n in FilesOf(Current(f))
  }

  /** `save_uploaded_video`: the document written back. It appends the name
      to `uploaded_files` after every earlier entry (a repeated name is
      appended again), records the new video id and time under `videos`,
      leaves every other `videos` entry as it was, creates keys that were
      missing, and starts from the empty document when the file is absent
      or unreadable. */
  function SaveUploaded(f: LedgerFile, filename: string, videoId: string, now: string): (d: Document)
    ensures d.uploadedFiles == Some(FilesOf(Current(f)) + [filename])
    ensures d.videos.Some?
    ensures filename in d.videos.value && d.videos.value[filename] == VideoRecord(videoId, now)
    ensures forall k :: k != filename ==> (k in d.videos.value <==> k in VideosOf(Current(f)))
    ensures forall k :: k != filename && k in d.videos.value ==>
      d.videos.value[k] == VideosOf(Current(f))[k]
  {
    var data := Current(f);
    var files := FilesOf(data);
    var videos := VideosOf(data);
    Document(Some(files + [filename]), Some(videos[filename := VideoRecord(videoId, now)]))
  }

  /** Loading after a save gives what loading before gave, plus the saved
      name; in particular a save never loses a name already recorded. */
  lemma LoadAfterSave(f: LedgerFile, filename: string, videoId: string, now: string)
    ensures LoadUploaded(Stored(SaveUploaded(f, filename, videoId, now))) == LoadUploaded(f) + {filename}
  {
    var d := SaveUploaded(f, filename, videoId, now);
    assert FilesOf(d) == FilesOf(Current(f)) + [filename];
  }
}

=== FILE: yandex_disk_client.dfy ===
/** The Yandex Disk side of the transfer: request headers, the public-key
    extraction, the folder-listing filter and the download retry loop.
    Every HTTP exchange is replaced by a scripted outcome. */
module YandexDiskClient {
  import opened Base

  /** An entry of the public folder listing; `kind` is the item's `type`
      field, absent when the listing omits it. */
  datatype Item = Item(name: string, path: string, kind: Option<string>)

  /** What the listing request produced: a request error (raised to the
      caller), or a response whose `_embedded.items` list may be missing. */
  datatype ListOutcome = ListFailed | Listed(items: Option<seq<Item>>)

  // ---------------------------------------------------------------- headers

  /** The headers sent with every API request: an `Authorization` header
      exactly when an OAuth token is configured and non-empty. */
  function Headers(oauthToken: Option<string>): (h: map<string, string>)
    ensures "Authorization" in h <==> oauthToken.Some? && oauthToken.value != ""
    ensures forall k :: k in h ==> k == "Authorization"
    ensures "Authorization" in h ==> h["Authorization"] == "OAuth " + oauthToken.value
  {
    match oauthToken
    case Some(token) =>
      if token != "" then map["Authorization" := "OAuth " + token] else map[]
    case None => map[]
  }

  // ------------------------------------------------------------- public key

  const SharePrefix := "/d/"

  /** The key sent to the API, given the configured key and the path
      component `urlparse` found in it: a `/d/<key>` path yields the bare
      key, anything else leaves the configured value unchanged. */
  function ExtractPublicKey(publicKey: string, parsedPath: string): (r: string)
    ensures StartsWith(parsedPath, SharePrefix) ==> SharePrefix + r == parsedPath
    ensures !StartsWith(parsedPath, SharePrefix) ==> r == publicKey
  {
    if StartsWith(parsedPath, SharePrefix) then parsedPath[|SharePrefix|..] else publicKey
  }

  // ---------------------------------------------------------------- listing

  predicate IsFile(item: Item) {
    item.kind == Some("file")
  }

  /** `list_files`: None when the request fails (the error is raised to the
      caller); otherwise the listed items whose type is "file", in listing
      order, or nothing when the response has no item list. */
  function ListFiles(outcome: ListOutcome): (r: Option<seq<Item>>)
    ensures r.None? <==> outcome.ListFailed?
    ensures outcome.Listed? && outcome.items.None? ==> r == Some([])
    ensures outcome.Listed? && outcome.items.Some? ==>
      r.Some? && forall it :: it in r.value <==> it in outcome.items.value && IsFile(it)
  {
    match outcome
    case ListFailed => None
    case Listed(items) =>
      match items
      case None => Some([])
      case Some(all) => Some(Filter(all, IsFile))
  }

  /** Listing two halves separately and concatenating gives the same files,
      so the kept items stay in listing order. */
  lemma ListingKeepsOrder(xs: seq<Item>, ys: seq<Item>)
    ensures ListFiles(Listed(Some(xs + ys))) ==
      Some(ListFiles(Listed(Some(xs))).value + ListFiles(Listed(Some(ys))).value)
  {
    FilterAppend(xs, ys, IsFile);
  }

  // --------------------------------------------------------------- download

  const MaxDownloadAttempts := 3
  const DownloadRetryDelay := 5

  /** How one download attempt ended: the whole body was written, a request
      error came before the local file was opened, or one came while the
      body was streaming into it (leaving a partial file). */
  datatype DownloadAttempt = Fetched | FailedBeforeWrite | FailedWhileWriting

  /** The observable result of `download_file`: the boolean it returns, how
      many attempts it made, the sleeps between them, and whether the local
      file was opened for writing at least once. */
  datatype DownloadRun = DownloadRun(ok: bool, attempts: nat, sleeps: seq<nat>, wrote: bool)

  /** The download loop from attempt number `attempt` (0-based) onward. */
  function DownloadFrom(attempt: nat, outcome: nat -> DownloadAttempt): (r: DownloadRun)
    requires attempt < MaxDownloadAttempts
    ensures attempt < r.attempts <= MaxDownloadAttempts
    ensures r.ok <==> outcome(r.attempts - 1) == Fetched
    ensures forall i :: attempt <= i < r.attempts - 1 ==> outcome(i) != Fetched
    ensures !r.ok ==> r.attempts == MaxDownloadAttempts
    ensures |r.sleeps| == r.attempts - attempt - 1
    ensures forall j :: 0 <= j < |r.sleeps| ==> r.sleeps[j] == DownloadRetryDelay * (attempt + j + 1)
    ensures r.wrote <==> exists i :: attempt <= i < r.attempts && outcome(i) != FailedBeforeWrite
    decreases MaxDownloadAttempts - attempt
  {
    match outcome(attempt)
    case Fetched => DownloadRun(true, attempt + 1, [], true)
    case _ =>
      var partial := outcome(attempt) == FailedWhileWriting;
      if attempt < MaxDownloadAttempts - 1 then
        var rest := DownloadFrom(attempt + 1, outcome);
        DownloadRun(rest.ok, rest.attempts, [DownloadRetryDelay * (attempt + 1)] + rest.sleeps,
                    partial || rest.wrote)
      else
        DownloadRun(false, attempt + 1, [], partial)
  }

  /** `download_file`: at most three attempts, `True` on the first that
      fetches the body, sleeps of 5 then 10 between failed attempts and
      none after the third, and `False` (never an exception) once all three
      have failed with a request error. */
  function DownloadFile(tries: nat -> DownloadAttempt): (r: DownloadRun)
    ensures 1 <= r.attempts <= MaxDownloadAttempts
    ensures r.ok ==> tries(r.attempts - 1) == Fetched && r.wrote
    ensures r.attempts >= 2 ==> tries(0) != Fetched
    ensures r.attempts == 3 ==> tries(1) != Fetched
    ensures !r.ok ==> r.attempts == 3 && tries(2) != Fetched
    ensures |r.sleeps| == r.attempts - 1
    ensures forall j :: 0 <= j < |r.sleeps| ==> r.sleeps[j] == DownloadRetryDelay * (j + 1)
  {
    DownloadFrom(0, tries)
  }

  /** The download succeeds exactly when one of the three attempts fetches
      the body; all three are made only when the first two fail. */
  lemma DownloadSucceedsIffSomeAttemptFetches(tries: nat -> DownloadAttempt)
    ensures DownloadFile(tries).ok <==> exists i :: 0 <= i < MaxDownloadAttempts && tries(i) == Fetched
    ensures !DownloadFile(tries).ok ==> DownloadFile(tries).sleeps == [5, 10]
  {
    var r := DownloadFile(tries);
    if r.ok {
      assert tries(r.attempts - 1) == Fetched;
    }
  }
}

=== FILE: youtube_uploader.dfy ===
/** The YouTube side of the transfer: the resumable-upload chunk loop and the
    outer `upload_video` retry loop around it. They are two separate state
    machines with different back-off policies and error classifications. */
module YouTubeUploader {
  import opened Base

  // ======================================================= resumable upload

  /** HTTP statuses the chunk loop treats as retriable. */
  const RetriableStatuses: set<int> := {500, 502, 503, 504}
  /** The loop gives up when its retry counter would exceed this. */
  const MaxRetries := 3
  /** The cap applied to the exponential back-off. */
  const MaxSleepSeconds := 60

  /** The final response of `next_chunk`; only whether it has an `id` and
      what that id is matter to the loop. */
  datatype Response = Response(id: Option<string>)

  /** What one call to `next_chunk` did: reported progress without a final
      response, delivered the final response, raised an `HttpError` (with
      its HTTP status and the reason its body carries), or raised any other
      exception. */
  datatype ChunkOutcome =
    | InProgress
    | Finished(response: Response)
    | HttpFailure(status: int, reason: string)
    | OtherFailure

  /** How `_resumable_upload` ended: returned a response carrying `videoId`,
      fell out of the loop and returned `None`, let a non-retriable
      `HttpError` propagate, raised "No longer attempting to retry", or --
      when the script runs out -- was still waiting on `next_chunk`. */
  datatype LoopResult =
    | Returned(videoId: string)
    | ReturnedNone
    | RaisedHttp(status: int, reason: string)
    | GaveUp
    | Stalled

  /** The result together with the sleeps taken, in order. */
  datatype LoopRun = LoopRun(result: LoopResult, sleeps: seq<nat>)

  function Pow2(n: nat): (r: nat)
    ensures r >= 1
  {
    if n == 0 then 1 else 2 * Pow2(n - 1)
  }

  /** The sleep taken after the `retry`-th counted iteration. */
  function SleepFor(retry: nat): nat {
    var wanted := Pow2(retry);
    if wanted < MaxSleepSeconds then wanted else MaxSleepSeconds
  }

  /** An `HttpError` whose status is outside the retriable set: re-raised. */
  predicate Propagates(o: ChunkOutcome) {
    o.HttpFailure? && o.status !in RetriableStatuses
  }

  /** A final response with an `id`: returned at once. */
  predicate CarriesId(o: ChunkOutcome) {
    o.Finished? && o.response.id.Some?
  }

  /** An exception the loop records as its `error`: a retriable `HttpError`
      or any other exception. */
  predicate IsRetriableError(o: ChunkOutcome) {
    (o.HttpFailure? && o.status in RetriableStatuses) || o.OtherFailure?
  }

  /** An iteration that neither returns nor re-raises once an error has
      been recorded: a progress report or another retriable error. */
  predicate Counted(o: ChunkOutcome) {
    o.InProgress? || IsRetriableError(o)
  }

  /** The `while response is None` loop. `errorSeen` is the loop's `error`
      variable: once set it is never cleared, so every later iteration that
      does not return increments `retry` and sleeps. A final response
      without an `id` is assigned to `response` and then raises inside the
      `try`; the generic handler records it, the loop sleeps once, and then
      exits because `response` is no longer `None`. */
  function Loop(script: seq<ChunkOutcome>, errorSeen: bool, retry: nat): (r: LoopRun)
    requires retry <= MaxRetries
    ensures retry + |r.sleeps| <= MaxRetries
    ensures forall j :: 0 <= j < |r.sleeps| ==> r.sleeps[j] == Pow2(retry + j + 1)
    ensures r.result.GaveUp? ==> retry + |r.sleeps| == MaxRetries
    ensures r.result.ReturnedNone? ==> |r.sleeps| >= 1
    ensures r.result.RaisedHttp? ==> r.result.status !in RetriableStatuses
    decreases |script|
  {
    if script == [] then LoopRun(Stalled, [])
    else
      var o := script[0];
      if CarriesId(o) then LoopRun(Returned(o.response.id.value), [])
      else if Propagates(o) then LoopRun(RaisedHttp(o.status, o.reason), [])
      else
        var error := errorSeen || !o.InProgress?;
        if !error then Loop(script[1..], false, retry)
        else if retry + 1 > MaxRetries then LoopRun(GaveUp, [])
        else
          var pause := SleepFor(retry + 1);
          assert pause == Pow2(retry + 1);
          if o.Finished? then LoopRun(ReturnedNone, [pause])
          else
            var rest := Loop(script[1..], true, retry + 1);
            LoopRun(rest.result, [pause] + rest.sleeps)
  }

  /** Every result the loop reaches is traced back to the chunk outcome
      that caused it, and the loop is still waiting only when no outcome
      in the script decided it. */
  lemma {:induction false} LoopTracesBack(script: seq<ChunkOutcome>, errorSeen: bool, retry: nat)
    requires retry <= MaxRetries
    ensures var r := Loop(script, errorSeen, retry);
      && (r.result.Returned? ==> Finished(Response(Some(r.result.videoId))) in script)
      && (r.result.ReturnedNone? ==> Finished(Response(None)) in script)
      && (r.result.RaisedHttp? ==> HttpFailure(r.result.status, r.result.reason) in script)
      && (r.result.Stalled? ==> forall i :: 0 <= i < |script| ==> Counted(script[i]))
    decreases |script|
  {
    if script != [] {
      var o := script[0];
      var error := errorSeen || !o.InProgress?;
      if !CarriesId(o) && !Propagates(o) && (!error || (retry + 1 <= MaxRetries && !o.Finished?)) {
        LoopTracesBack(script[1..], true, if error then retry + 1 else retry);
        LoopTracesBack(script[1..], false, retry);
        assert forall c :: c in script[1..] ==> c in script;
        assert forall i :: 1 <= i < |script| ==> script[i] == script[1..][i - 1];
      }
    }
  }

  /** `_resumable_upload`: the sleeps are exactly 2, 4, 8 in that order (so
      the 60-second cap is never reached), a give-up happens only after all
      three, and every result other than `Stalled` is traced back to the
      chunk outcome that caused it. */
  function ResumableUpload(script: seq<ChunkOutcome>): (r: LoopRun)
    ensures |r.sleeps| <= MaxRetries
    ensures r.sleeps == [2, 4, 8][..|r.sleeps|]
    ensures forall j :: 0 <= j < |r.sleeps| ==> r.sleeps[j] < MaxSleepSeconds
    ensures r.result.GaveUp? ==> r.sleeps == [2, 4, 8]
    ensures r.result.Returned? ==> Finished(Response(Some(r.result.videoId))) in script
    ensures r.result.ReturnedNone? ==> Finished(Response(None)) in script
    ensures r.result.RaisedHttp? ==>
      HttpFailure(r.result.status, r.result.reason) in script && r.result.status !in RetriableStatuses
    ensures r.result.Stalled? ==> forall i :: 0 <= i < |script| ==> Counted(script[i])
  {
    LoopTracesBack(script, false, 0);
    var r := Loop(script, false, 0);
    assert Pow2(1) == 2 && Pow2(2) == 4 && Pow2(3) == 8;
    assert forall j :: 0 <= j < |r.sleeps| ==> r.sleeps[j] == [2, 4, 8][j];
    r
  }

  /** `n` copies of the outcome `o`. */
  function Repeat(o: ChunkOutcome, n: nat): (r: seq<ChunkOutcome>)
    ensures |r| == n
    ensures forall i :: 0 <= i < n ==> r[i] == o
  {
    if n == 0 then [] else [o] + Repeat(o, n - 1)
  }

  /** Before any error, progress reports leave the loop's state untouched:
      no retry is counted and no sleep is taken. */
  lemma {:induction false} QuietProgress(n: nat, tail: seq<ChunkOutcome>)
    ensures Loop(Repeat(InProgress, n) + tail, false, 0) == Loop(tail, false, 0)
  {
    if n == 0 {
      assert Repeat(InProgress, n) + tail == tail;
    } else {
      var s := Repeat(InProgress, n) + tail;
      assert s[0] == InProgress;
      assert s[1..] == Repeat(InProgress, n - 1) + tail;
      QuietProgress(n - 1, tail);
    }
  }

  /** The loop returns the first final response that carries an `id`,
      without sleeping. */
  lemma ReturnsFirstId(n: nat, id: string, rest: seq<ChunkOutcome>)
    ensures ResumableUpload(Repeat(InProgress, n) + [Finished(Response(Some(id)))] + rest)
         == LoopRun(Returned(id), [])
  {
    var tail := [Finished(Response(Some(id)))] + rest;
    assert Repeat(InProgress, n) + [Finished(Response(Some(id)))] + rest == Repeat(InProgress, n) + tail;
    QuietProgress(n, tail);
  }

  /** A final response without an `id` is caught as a retriable error: the
      loop sleeps 2 seconds, then exits and returns `None`. */
  lemma MissingIdSleepsOnceThenReturnsNone(n: nat, rest: seq<ChunkOutcome>)
    ensures ResumableUpload(Repeat(InProgress, n) + [Finished(Response(None))] + rest)
         == LoopRun(ReturnedNone, [2])
  {
    var tail := [Finished(Response(None))] + rest;
    assert Repeat(InProgress, n) + [Finished(Response(None))] + rest == Repeat(InProgress, n) + tail;
    QuietProgress(n, tail);
  }

  /** An `HttpError` with a status outside {500, 502, 503, 504} propagates
      at once: no retry is counted and no sleep is taken. */
  lemma NonRetriableHttpErrorPropagates(n: nat, status: int, reason: string, rest: seq<ChunkOutcome>)
    requires status !in RetriableStatuses
    ensures ResumableUpload(Repeat(InProgress, n) + [HttpFailure(status, reason)] + rest)
         == LoopRun(RaisedHttp(status, reason), [])
  {
    var tail := [HttpFailure(status, reason)] + rest;
    assert Repeat(InProgress, n) + [HttpFailure(status, reason)] + rest == Repeat(InProgress, n) + tail;
    QuietProgress(n, tail);
  }

  /** A retriable status or any other exception is counted: the first one
      is followed by a 2-second sleep. */
  lemma RetriableErrorIsCounted(o: ChunkOutcome, rest: seq<ChunkOutcome>)
    requires IsRetriableError(o)
    ensures |ResumableUpload([o] + rest).sleeps| >= 1
    ensures ResumableUpload([o] + rest).sleeps[0] == 2
  {
    assert ([o] + rest)[1..] == rest;
  }

  /** With `error` set, counted iterations take the remaining sleeps one by
      one and give up on the iteration that pushes `retry` past 3. */
  lemma {:induction false} CountedIterationsGiveUp(script: seq<ChunkOutcome>, retry: nat)
    requires 1 <= retry <= MaxRetries
    requires |script| > MaxRetries - retry
    requires forall i :: 0 <= i <= MaxRetries - retry ==> Counted(script[i])
    ensures Loop(script, true, retry).result == GaveUp
  {
    if retry < MaxRetries {
      CountedIterationsGiveUp(script[1..], retry + 1);
    }
  }

  /** With `error` set, a run of progress reports is counted iteration by
      iteration: fewer than the remaining retries stall after that many
      sleeps, enough of them give up. */
  lemma {:induction false} ProgressAfterErrorIsCounted(n: nat, retry: nat)
    requires 1 <= retry <= MaxRetries
    ensures n <= MaxRetries - retry ==>
      Loop(Repeat(InProgress, n), true, retry).result == Stalled &&
      |Loop(Repeat(InProgress, n), true, retry).sleeps| == n
    ensures n > MaxRetries - retry ==> Loop(Repeat(InProgress, n), true, retry).result == GaveUp
  {
    if n > 0 {
      assert Repeat(InProgress, n)[1..] == Repeat(InProgress, n - 1);
      if retry < MaxRetries {
        ProgressAfterErrorIsCounted(n - 1, retry + 1);
      }
    }
  }

  /** The fourth counted iteration after an error raises "No longer
      attempting to retry" without sleeping, after exactly 2, 4 and 8. */
  lemma FourthErrorGivesUp(script: seq<ChunkOutcome>)
    requires |script| >= 4
    requires IsRetriableError(script[0])
    requires forall i :: 1 <= i < 4 ==> Counted(script[i])
    ensures ResumableUpload(script) == LoopRun(GaveUp, [2, 4, 8])
  {
    CountedIterationsGiveUp(script[1..], 1);
  }

  /** The `error` variable is never cleared: after one error, plain progress
      reports keep consuming retries until the loop gives up. */
  lemma ErrorIsSticky(n: nat)
    ensures n < MaxRetries ==>
      ResumableUpload([OtherFailure] + Repeat(InProgress, n)) == LoopRun(Stalled, [2, 4, 8][..n + 1])
    ensures n >= MaxRetries ==>
      ResumableUpload([OtherFailure] + Repeat(InProgress, n)) == LoopRun(GaveUp, [2, 4, 8])
  {
    assert ([OtherFailure] + Repeat(InProgress, n))[1..] == Repeat(InProgress, n);
    ProgressAfterErrorIsCounted(n, 1);
  }

  /** One iteration that is counted: with `error` recorded (or raised by
      this very outcome) and `retry` below the limit, it sleeps once and
      moves on with `error` set. */
  lemma CountedStep(script: seq<ChunkOutcome>, errorSeen: bool, retry: nat)
    requires retry < MaxRetries
    requires |script| > 0 && Counted(script[0])
    requires errorSeen || !script[0].InProgress?
    ensures Loop(script, errorSeen, retry).result == Loop(script[1..], true, retry + 1).result
    ensures |Loop(script, errorSeen, retry).sleeps| == 1 + |Loop(script[1..], true, retry + 1).sleeps|
  {
  }

  /** With `error` set, the first `k` iterations, all counted and below
      the give-up point, each cost one retry and decide nothing. */
  lemma {:induction false} CountedRun(script: seq<ChunkOutcome>, k: nat, retry: nat)
    requires k <= |script| && retry + k <= MaxRetries
    requires forall i :: 0 <= i < k ==> Counted(script[i])
    ensures Loop(script, true, retry).result == Loop(script[k..], true, retry + k).result
  {
    if k > 0 {
      CountedStep(script, true, retry);
      assert script[1..][k - 1..] == script[k..];
      CountedRun(script[1..], k - 1, retry + 1);
    }
  }

  /** ... and each of them sleeps exactly once. */
  lemma {:induction false} CountedRunSleeps(script: seq<ChunkOutcome>, k: nat, retry: nat)
    requires k <= |script| && retry + k <= MaxRetries
    requires forall i :: 0 <= i < k ==> Counted(script[i])
    ensures |Loop(script, true, retry).sleeps| == k + |Loop(script[k..], true, retry + k).sleeps|
  {
    if k > 0 {
      CountedStep(script, true, retry);
      assert script[1..][k - 1..] == script[k..];
      CountedRunSleeps(script[1..], k - 1, retry + 1);
    }
  }

  /** With `error` set, the outcome that decides the loop: an `id` is
      returned and a non-retriable status propagates without sleeping; a
      response without `id` sleeps once more and returns `None`, unless it
      is the fourth counted iteration, which gives up. */
  lemma DecidingOutcome(d: ChunkOutcome, rest: seq<ChunkOutcome>, retry: nat)
    requires retry <= MaxRetries
    ensures CarriesId(d) ==> Loop([d] + rest, true, retry) == LoopRun(Returned(d.response.id.value), [])
    ensures Propagates(d) ==> Loop([d] + rest, true, retry) == LoopRun(RaisedHttp(d.status, d.reason), [])
    ensures d == Finished(Response(None)) && retry < MaxRetries ==>
      Loop([d] + rest, true, retry).result == ReturnedNone && |Loop([d] + rest, true, retry).sleeps| == 1
    ensures d == Finished(Response(None)) && retry == MaxRetries ==>
      Loop([d] + rest, true, retry) == LoopRun(GaveUp, [])
  {
    assert ([d] + rest)[0] == d;
  }

  /** Dropping the first element shifts every index down by one. */
  lemma DropFirst<T>(x: seq<T>, c: nat)
    requires 1 <= c < |x|
    ensures forall i :: 0 <= i < c - 1 ==> x[1..][i] == x[i + 1]
    ensures x[1..][c - 1..] == [x[c]] + x[c + 1..]
  {
    assert x[1..][c - 1..] == [x[c]] + x[c + 1..];
  }

  /** From a fresh loop: a retriable error and then `c - 1` counted
      iterations leave the outcome at position `c` to decide the loop, with
      `error` set and `retry` at `c`. */
  lemma ErrorsThenDecision(x: seq<ChunkOutcome>, c: nat)
    requires 1 <= c <= MaxRetries && c < |x|
    requires IsRetriableError(x[0])
    requires forall i :: 1 <= i < c ==> Counted(x[i])
    ensures Loop(x, false, 0).result == Loop([x[c]] + x[c + 1..], true, c).result
  {
    CountedStep(x, false, 0);
    DropFirst(x, c);
    CountedRun(x[1..], c - 1, 1);
  }

  /** ... after one sleep for each of those `c` iterations. */
  lemma ErrorsThenDecisionSleeps(x: seq<ChunkOutcome>, c: nat)
    requires 1 <= c <= MaxRetries && c < |x|
    requires IsRetriableError(x[0])
    requires forall i :: 1 <= i < c ==> Counted(x[i])
    ensures |Loop(x, false, 0).sleeps| == c + |Loop([x[c]] + x[c + 1..], true, c).sleeps|
  {
    CountedStep(x, false, 0);
    DropFirst(x, c);
    CountedRunSleeps(x[1..], c - 1, 1);
  }

  /** The resume case: after progress reports, a retriable error and fewer
      than three further counted iterations, the next deciding outcome
      settles the upload, with one sleep of 2, 4, 8 per counted iteration. */
  lemma ResumesAfterRetriableErrors(n: nat, e: ChunkOutcome, mids: seq<ChunkOutcome>, d: ChunkOutcome, rest: seq<ChunkOutcome>)
    requires IsRetriableError(e)
    requires |mids| < MaxRetries
    requires forall i :: 0 <= i < |mids| ==> Counted(mids[i])
    ensures var r := ResumableUpload(Repeat(InProgress, n) + [e] + mids + [d] + rest);
      var c := 1 + |mids|;
      && (CarriesId(d) ==> r == LoopRun(Returned(d.response.id.value), [2, 4, 8][..c]))
      && (Propagates(d) ==> r == LoopRun(RaisedHttp(d.status, d.reason), [2, 4, 8][..c]))
      && (d == Finished(Response(None)) && c < MaxRetries ==> r == LoopRun(ReturnedNone, [2, 4, 8][..c + 1]))
      && (d == Finished(Response(None)) && c == MaxRetries ==> r == LoopRun(GaveUp, [2, 4, 8]))
  {
    var c := 1 + |mids|;
    var x := [e] + mids + [d] + rest;
    assert Repeat(InProgress, n) + [e] + mids + [d] + rest == Repeat(InProgress, n) + x;
    QuietProgress(n, x);
    assert x[0] == e;
    assert forall i :: 1 <= i < c ==> x[i] == mids[i - 1];
    assert x[c] == d && x[c + 1..] == rest;
    ErrorsThenDecision(x, c);
    ErrorsThenDecisionSleeps(x, c);
    DecidingOutcome(d, rest, c);
  }

  /** A 503 on the first chunk, then the response with its `id`: one
      2-second sleep, then the id. */
  lemma ServerErrorThenId(reason: string, id: string)
    ensures ResumableUpload([HttpFailure(503, reason), Finished(Response(Some(id)))]) == LoopRun(Returned(id), [2])
  {
    ResumesAfterRetriableErrors(0, HttpFailure(503, reason), [], Finished(Response(Some(id))), []);
    assert Repeat(InProgress, 0) + [HttpFailure(503, reason)] + [] + [Finished(Response(Some(id)))] + []
        == [HttpFailure(503, reason), Finished(Response(Some(id)))];
  }

  // =========================================================== upload_video

  const MaxUploadAttempts := 3
  const UploadRetryDelay := 10
  const QuotaExceeded := "quotaExceeded"
  const RateLimitExceeded := "rateLimitExceeded"

  /** How one pass of `upload_video`'s `try` block ended: the resumable
      upload returned a response with `videoId`; it returned `None`, so
      `response['id']` raised a `TypeError`; an `HttpError` carrying
      `reason` reached the handler; or any other exception did (a setup
      failure, or the chunk loop giving up). */
  datatype AttemptOutcome =
    | Responded(videoId: string)
    | RespondedNothing
    | ApiError(reason: string)
    | Unexpected

  /** What `upload_video` did: returned a video id, returned `None`, or
      exited the whole process because the quota is exhausted. */
  datatype UploadOutcome = Uploaded(videoId: string) | NotUploaded | QuotaFatal

  datatype UploadRun = UploadRun(outcome: UploadOutcome, attempts: nat, sleeps: seq<nat>)

  /** An attempt outcome that ends the retry loop on the spot. */
  predicate Stops(o: AttemptOutcome) {
    o.Responded? || o == ApiError(QuotaExceeded)
  }

  /** The attempt loop from attempt number `attempt` (0-based) onward. A
      rate-limit error, any other API error and an unexpected exception all
      sleep `10 * (attempt + 1)` and retry while attempts remain; after the
      last one the rate-limit branch falls out of the `for` loop and the
      other two return `None`, which is the same result. */
  function UploadFrom(attempt: nat, outcome: nat -> AttemptOutcome): (r: UploadRun)
    requires attempt < MaxUploadAttempts
    ensures attempt < r.attempts <= MaxUploadAttempts
    ensures forall i :: attempt <= i < r.attempts - 1 ==> !Stops(outcome(i))
    ensures r.outcome.NotUploaded? <==> !Stops(outcome(r.attempts - 1))
    ensures r.outcome.NotUploaded? ==> r.attempts == MaxUploadAttempts
    ensures r.outcome.Uploaded? ==> outcome(r.attempts - 1) == Responded(r.outcome.videoId)
    ensures r.outcome.QuotaFatal? <==> outcome(r.attempts - 1) == ApiError(QuotaExceeded)
    ensures |r.sleeps| == r.attempts - attempt - 1
    ensures forall j :: 0 <= j < |r.sleeps| ==> r.sleeps[j] == UploadRetryDelay * (attempt + j + 1)
    decreases MaxUploadAttempts - attempt
  {
    match outcome(attempt)
    case Responded(id) => UploadRun(Uploaded(id), attempt + 1, [])
    case ApiError(reason) =>
      // The rate-limit branch and the generic API-error branch both back
      // off and retry; on the last attempt the first falls out of the `for`
      // loop and the second returns `None`, which is the same result.
      if reason == QuotaExceeded then UploadRun(QuotaFatal, attempt + 1, [])
      else RetryAfter(attempt, outcome)
    case RespondedNothing => RetryAfter(attempt, outcome)
    case Unexpected => RetryAfter(attempt, outcome)
  }

  /** Back off and move to the next attempt, or give up after the last. */
  function RetryAfter(attempt: nat, outcome: nat -> AttemptOutcome): (r: UploadRun)
    requires attempt < MaxUploadAttempts
    requires !Stops(outcome(attempt))
    ensures attempt < r.attempts <= MaxUploadAttempts
    ensures forall i :: attempt <= i < r.attempts - 1 ==> !Stops(outcome(i))
    ensures r.outcome.NotUploaded? <==> !Stops(outcome(r.attempts - 1))
    ensures r.outcome.NotUploaded? ==> r.attempts == MaxUploadAttempts
    ensures r.outcome.Uploaded? ==> outcome(r.attempts - 1) == Responded(r.outcome.videoId)
    ensures r.outcome.QuotaFatal? <==> outcome(r.attempts - 1) == ApiError(QuotaExceeded)
    ensures |r.sleeps| == r.attempts - attempt - 1
    ensures forall j :: 0 <= j < |r.sleeps| ==> r.sleeps[j] == UploadRetryDelay * (attempt + j + 1)
    decreases MaxUploadAttempts - attempt, 0
  {
    if attempt < MaxUploadAttempts - 1 then
      var rest := UploadFrom(attempt + 1, outcome);
      UploadRun(rest.outcome, rest.attempts, [UploadRetryDelay * (attempt + 1)] + rest.sleeps)
    else
      UploadRun(NotUploaded, attempt + 1, [])
  }

  /** `upload_video`: at most three attempts; a video id only from an attempt
      whose response carried it; the quota error ends everything on the
      attempt it occurs; every other failure is retried after 10 then 20
      seconds, and `None` is returned once three attempts have failed. */
  function UploadVideo(tries: nat -> AttemptOutcome): (r: UploadRun)
    ensures 1 <= r.attempts <= MaxUploadAttempts
    ensures r.outcome.Uploaded? ==> tries(r.attempts - 1) == Responded(r.outcome.videoId)
    ensures r.outcome.QuotaFatal? ==> tries(r.attempts - 1) == ApiError(QuotaExceeded)
    ensures r.attempts >= 2 ==> !Stops(tries(0))
    ensures r.attempts == 3 ==> !Stops(tries(1))
    ensures r.outcome.NotUploaded? <==> r.attempts == 3 && !Stops(tries(2))
    ensures |r.sleeps| == r.attempts - 1
    ensures forall j :: 0 <= j < |r.sleeps| ==> r.sleeps[j] == UploadRetryDelay * (j + 1)
  {
    UploadFrom(0, tries)
  }

  /** `None` comes back exactly when none of the three attempts yields a
      response or the quota error. */
  lemma NotUploadedIffNoAttemptStops(tries: nat -> AttemptOutcome)
    ensures UploadVideo(tries).outcome.NotUploaded? <==>
      forall i :: 0 <= i < MaxUploadAttempts ==> !Stops(tries(i))
  {
    var r := UploadVideo(tries);
    if !r.outcome.NotUploaded? {
      assert Stops(tries(r.attempts - 1));
    }
  }

  /** What `upload_video`'s `try` block sees from one run of the chunk loop;
      `None` when the loop is still waiting on `next_chunk`. */
  function AttemptOf(r: LoopResult): (a: Option<AttemptOutcome>)
    ensures a.None? <==> r.Stalled?
    ensures a.Some? && a.value.Responded? <==> r.Returned?
    ensures r.Returned? ==> a.value.videoId == r.videoId
    ensures a.Some? && a.value.ApiError? <==> r.RaisedHttp?
    ensures r.RaisedHttp? ==> a.value.reason == r.reason
    ensures a == Some(RespondedNothing) <==> r.ReturnedNone?
  {
    match r
    case Returned(id) => Some(Responded(id))
    case ReturnedNone => Some(RespondedNothing)
    case RaisedHttp(_, reason) => Some(ApiError(reason))
    case GaveUp => Some(Unexpected)
    case Stalled => None
  }

  /** The attempt outcomes `upload_video` sees when attempt `i` drives the
      chunk loop with script `s(i)`. A loop still waiting on `next_chunk`
      never ends its attempt; the lemmas below say when that matters. */
  function ChunkAttempts(s: nat -> seq<ChunkOutcome>): nat -> AttemptOutcome {
    (i: nat) =>
      match AttemptOf(ResumableUpload(s(i)).result)
      case Some(a) => a
      case None => Unexpected
  }

  /** Uploading with real chunk loops: a video id comes only from a final
      response carrying that id in the chunk script of the attempt that
      returned it, and the process exits on the quota only when that
      attempt's script holds a non-retriable `HttpError` with reason
      `quotaExceeded`. */
  lemma ChunkedUploadTracesBack(s: nat -> seq<ChunkOutcome>)
    ensures var u := UploadVideo(ChunkAttempts(s));
      && (u.outcome.Uploaded? ==> Finished(Response(Some(u.outcome.videoId))) in s(u.attempts - 1))
      && (u.outcome.QuotaFatal? ==> exists st :: st !in RetriableStatuses && HttpFailure(st, QuotaExceeded) in s(u.attempts - 1))
  {
    var u := UploadVideo(ChunkAttempts(s));
    var k := u.attempts - 1;
    var loop := ResumableUpload(s(k));
    assert ChunkAttempts(s)(k) == match AttemptOf(loop.result) case Some(a) => a case None => Unexpected;
    if u.outcome.QuotaFatal? {
      assert loop.result.RaisedHttp?;
      assert HttpFailure(loop.result.status, QuotaExceeded) in s(k);
    }
  }

  /** A non-retriable `HttpError` with reason `quotaExceeded` in the first
      attempt's chunk loop, after any number of progress reports, ends the
      process: one attempt, no sleep. */
  lemma QuotaInFirstChunkLoopIsFatal(s: nat -> seq<ChunkOutcome>, n: nat, status: int, rest: seq<ChunkOutcome>)
    requires status !in RetriableStatuses
    requires s(0) == Repeat(InProgress, n) + [HttpFailure(status, QuotaExceeded)] + rest
    ensures UploadVideo(ChunkAttempts(s)) == UploadRun(QuotaFatal, 1, [])
  {
    NonRetriableHttpErrorPropagates(n, status, QuotaExceeded, rest);
    assert ChunkAttempts(s)(0) == ApiError(QuotaExceeded);
    QuotaStopsImmediately(ChunkAttempts(s));
  }

  /** A 503 in the first attempt's chunk loop is retried inside that loop:
      the attempt still returns the id, with no outer retry. */
  lemma ServerErrorInChunkLoopStillUploads(s: nat -> seq<ChunkOutcome>, reason: string, id: string)
    requires s(0) == [HttpFailure(503, reason), Finished(Response(Some(id)))]
    ensures UploadVideo(ChunkAttempts(s)) == UploadRun(Uploaded(id), 1, [])
  {
    ServerErrorThenId(reason, id);
    assert ChunkAttempts(s)(0) == Responded(id);
  }

  /** A chunk script in which no final response carries an `id` never gives
      `upload_video` a video id for that attempt. */
  lemma NoIdNoVideoId(script: seq<ChunkOutcome>)
    requires forall k :: 0 <= k < |script| ==> !CarriesId(script[k])
    ensures AttemptOf(ResumableUpload(script).result).None?
         || !AttemptOf(ResumableUpload(script).result).value.Responded?
  {
  }

  /** A final response without an `id` makes the attempt fail with the
      `TypeError` of `response['id']`, which the generic handler retries. */
  lemma MissingIdFailsTheAttempt(n: nat, rest: seq<ChunkOutcome>)
    ensures AttemptOf(ResumableUpload(Repeat(InProgress, n) + [Finished(Response(None))] + rest).result)
         == Some(RespondedNothing)
  {
    MissingIdSleepsOnceThenReturnsNone(n, rest);
  }

  /** A rate-limit response on the first attempt and a video id on the
      second: one 10-second sleep, then the id. */
  lemma RateLimitThenSuccess(id: string)
    ensures UploadVideo(i => if i == 0 then ApiError(RateLimitExceeded) else Responded(id))
         == UploadRun(Uploaded(id), 2, [10])
  {
  }

  /** The quota error on the first attempt ends the upload at once. */
  lemma QuotaStopsImmediately(outcome: nat -> AttemptOutcome)
    requires outcome(0) == ApiError(QuotaExceeded)
    ensures UploadVideo(outcome) == UploadRun(QuotaFatal, 1, [])
  {
  }
}
